=== FILE: README.md ===
# Way-finder shortest paths, modelled in Dafny

This project models the pathfinding core of `Pathfinding.py`, a way-finder for
a building. It covers three parts:

- the in-memory undirected weighted `Graph`: a vertex set, adjacency lists and
  a weight per ordered vertex pair;
- `dijkstra`, which computes a `progress` map (the distance from the start) and a
  `predecessors` map over every vertex;
- `short_path`, which checks both endpoints, runs `dijkstra` and walks the
  predecessors back from the destination to build the route.

Modules, leaf first:

- `Options` (`options.dfy`): `Option` for Python's `None` and `Result` for raised errors.
- `Distances` (`distances.dfy`): `Dist = Fin(n) | Inf`. This is `math.inf` plus
  the non-negative integer distances, with Python's `+` and `<` on them.
- `Graphs` (`graphs.dfy`): the `Graph` datatype, `Empty` (`Graph()`), `AddVertex`,
  `AddEdge`, and the graph invariants `Weighted`, `Symmetric` and `Closed`.
- `Paths` (`paths.dfy`): paths through the graph and their weights. These are
  the reference definitions that shortest-path optimality is stated against.
- `ShortestPaths` (`shortest_paths.dfy`): `Dijkstra`, one round of its main loop
  (`Round`), and the inner relaxation loop (`Relax`). It also holds the loop
  invariant and the lemmas showing that each round keeps it.
- `Optimality` (`optimality.dfy`): what the final maps mean. Distances are lower
  bounds on every path. Predecessor chains are shortest paths. A distance is
  finite exactly when the vertex is reachable. Distances are symmetric.
- `Reconstruction` (`reconstruction.dfy`): `ShortPath` (`short_path`) and the
  backward walk `WalkBack`.
- `Sample` (`sample.dfy`): the five-vertex sample graph written out in the
  commented-out driver of `Pathfinding.py` and the answer for `a` to `e`. It also holds a
  graph whose only other endpoint is known from an edge alone, on which
  `short_path` fails.
- `TieSample` (`tie_sample.dfy`): a graph with two routes of equal weight from
  `s` to `t`, and the route `short_path` returns on it.

Modelling choices:

- Vertices are strings. Weights are `nat`, and distances are `Dist`.
- The vertex that `min(..., key=progress.get)` picks in each round is modelled as
  *any* unvisited vertex of minimum distance (`:|`). Each inner loop relaxes the
  unvisited neighbours in *any* order. Every property is therefore proved for
  every tie-break and every set-iteration order.
- `Dijkstra` has a ghost out-parameter `rank`, the round in which each vertex was
  visited. `Round` gives each vertex it visits the number `|visited|`. The
  contract uses `rank` to state that there are exactly |vertices| rounds and
  that predecessor chains have no cycles.
- Reading `graph.edges[v]` on the `defaultdict` is `Neighbors(g, v)`. It reads a
  missing key as the empty list and inserts nothing.
- The preconditions `Pathfinding.py` leaves implicit are explicit here:
  - The start must be a vertex.
  - Every neighbour of a vertex must be a vertex (`Closed`). Otherwise line 161 raises `KeyError`.
  - Every adjacency entry must have a weight (`Weighted`). Graphs built with `add_edge` always have one.
  - `ShortPath` demands `Closed` and `Weighted` only when both endpoints are
    vertices. A missing endpoint fails at line 174 before any adjacency list
    is read, whatever the graph's edges hold.
- Self-loops follow the code, not the evident intent of the `pass` branch. The test
  `if from_vertex == to_vertex: pass` skips nothing. So `AddEdge(g, v, v, d)`
  appends `v` to its own list twice and records weight `d` for `(v, v)`.
- An unreachable destination follows the code: `ShortPath` returns
  `([end], Inf)` as a success, not a separate "unreachable" error.
- The missing-endpoint error, a `TypeError` in the code, is
  `Failure(VertexNotInGraph)`.
- `currentPath` is built by appending and then reversed with `[::-1]`. The model
  prepends each vertex instead, which gives the same sequence.

## Model

| member | source | states |
|---|---|---|
| Distances.Dist.Plus | Pathfinding.py:158 | `progress[vertex] + weight`: infinity plus any weight stays infinite, and a finite distance grows by exactly the weight |
| Distances.Dist.Below | Pathfinding.py:161 | `testPath < progress[neighborNode]` with `math.inf`: only a finite value is below anything, every finite value is below infinity, infinity is below nothing, and two finite values compare as integers |
| Distances.AtMostTotalPreorder | Pathfinding.py:152 | the comparison `min(..., key=progress.get)` uses is total and transitive, and strictly below implies not at least |
| Graphs.Neighbors | Pathfinding.py:155 | reading `graph.edges[vertex]` from the `defaultdict`: a listed vertex yields its adjacency list, any other vertex the empty list |
| Graphs.Empty | Pathfinding.py:26-29 | a new graph has no vertices, empty adjacency lists and no weights, and satisfies the graph invariants |
| Graphs.AddVertex | Pathfinding.py:31-33 | inserts the vertex and changes no other membership; adjacency and weights are unchanged; adding a present vertex returns the same graph (idempotent set insert) |
| Graphs.AddVertexWellFormed | Pathfinding.py:31-33 | adding a vertex whose existing neighbours are already vertices keeps the graph well formed |
| Graphs.AddEdge | Pathfinding.py:35-43 | the vertex set never changes; `v` is appended to `u`'s list and `u` to `v`'s; a self-loop appends `u` to its own list twice (the `pass` skips nothing); no other list changes; both `(u,v)` and `(v,u)` weigh `d` and no other weight changes |
| Graphs.ReAddEdge | Pathfinding.py:40-43 | adding an edge a second time overwrites its weight with the new one and lists each endpoint twice in the other's list |
| Graphs.AddEdgeConsistent | Pathfinding.py:40-43 | after any `add_edge`, every adjacency entry has a weight, adjacency is mutual, and both directions of an edge weigh the same |
| Graphs.AddEdgeWellFormed | Pathfinding.py:35-43 | an edge between two vertices keeps the graph well formed, including closure under adjacency |
| Paths.ReversePath | Pathfinding.py:42-43 | because weights are stored in both directions, a path read backward is a path of the same total weight |
| ShortestPaths.MinimumExists | Pathfinding.py:152 | the set of unvisited vertices always has a vertex of minimum distance, so the `min` of each round is defined |
| ShortestPaths.Relax | Pathfinding.py:155-166 | the inner loop leaves visited vertices and the current vertex unchanged; every other change is a strict improvement of an unvisited neighbour through the current vertex, which becomes its predecessor; afterwards every unvisited neighbour is relaxed |
| ShortestPaths.InitialInvariant | Pathfinding.py:137-146 | the maps built by `dict.fromkeys` with the start set to 0 satisfy the main loop's invariant |
| ShortestPaths.RoundKeepsInvariant | Pathfinding.py:149-167 | a round that visits a minimum-distance unvisited vertex and relaxes its neighbours keeps the main loop's invariant |
| ShortestPaths.StartUntouchedByRound | Pathfinding.py:158-166 | no relaxation can lower the start below 0, so the start keeps distance 0 and no predecessor, and only reached vertices have predecessors |
| ShortestPaths.PredecessorsAfterRound | Pathfinding.py:161-166 | after a round every predecessor is a visited neighbour, the successor's distance is the predecessor's distance plus the edge weight, and the predecessor was visited in an earlier round |
| ShortestPaths.RoundNumbersAfterRound | Pathfinding.py:167 | each round adds exactly one new vertex to `visited` and gives it the next round number; the start is round 0 |
| ShortestPaths.OrderAfterRound | Pathfinding.py:152 | vertices are visited in order of non-decreasing distance |
| ShortestPaths.NearestAfterRound | Pathfinding.py:152-166 | after a round no unvisited vertex is nearer than any visited one, because relaxation only produces distances at least the current vertex's |
| ShortestPaths.RelaxedAfterRound | Pathfinding.py:155-167 | after a round every visited vertex has its edges relaxed; later rounds only lower unvisited distances, so this persists |
| ShortestPaths.InvariantAtExit | Pathfinding.py:149-168 | once `visited` equals the vertex set, the loop invariant gives every guarantee of the result |
| ShortestPaths.Round | Pathfinding.py:152-167 | one round of the main loop keeps the invariant; it visits exactly one new vertex, one of minimum distance among the unvisited; it gives that vertex the next round number; its only changes to the maps are `Relax`'s strict improvements through that vertex |
| ShortestPaths.Dijkstra | Pathfinding.py:115-168 | both maps are keyed by exactly the vertices; the start has distance 0 and no predecessor; each predecessor is a reached neighbour whose distance plus the edge weight is the successor's distance; every edge satisfies the triangle inequality; apart from the start, a vertex has a predecessor exactly when its distance is finite; the rounds number the vertices 0..\|V\|-1 one each, start first, predecessors before successors, in order of non-decreasing distance; because line 161 replaces a distance only by a strictly shorter one, no neighbour visited before a vertex's predecessor offers as short a way in (ties go to the earlier-visited neighbour) |
| Optimality.DistanceIsLowerBound | Pathfinding.py:155-168 | no path from the start is shorter than the recorded distance of its end, so every reachable vertex has a finite distance |
| Optimality.ChainIsShortestPath | Pathfinding.py:184-186 | a predecessor chain that begins at a vertex without predecessor and ends at a reached vertex is a path from the start whose weight is that vertex's distance |
| Optimality.PathToReached | Pathfinding.py:161-166 | every reached vertex has a path from the start along predecessors whose weight is exactly its distance |
| Optimality.ReachedIffPath | Pathfinding.py:142-168 | a distance is finite if and only if some path from the start reaches the vertex; otherwise it stays infinite |
| Optimality.ReverseDistanceAtMost | Pathfinding.py:115-168 | in an undirected graph the distance from `b` to `a` is at most the distance from `a` to `b` |
| Optimality.DistanceSymmetric | Pathfinding.py:115-168 | in an undirected graph the distance from `a` to `b` equals the distance from `b` to `a` |
| Reconstruction.ShortPath | Pathfinding.py:171-188 | fails exactly when start or end is not a vertex, on any graph, including one where the missing endpoint appears only inside an edge; otherwise the route ends at `end`; an infinite distance comes with route `[end]` and no path exists; a finite distance comes with a path from start to end whose edge weights sum to it, no path between them is shorter, and every prefix of the route is a shortest path; the route never repeats a vertex, even across zero-weight edges; each link of the route is an earliest link: any path from the start strictly lighter than the route's prefix up to a vertex, offering the route's next vertex as a neighbour, would reach it strictly more heavily than the route does (so among equally light ways in, the one through the earlier-settled vertex is kept); `short_path(g, v, v)` returns `([v], 0)` |
| ShortestPaths.EarliestAfterRound | Pathfinding.py:158-166 | a round keeps the earliest-predecessor property: a predecessor left in place already beat every earlier neighbour, and a new one replaced a distance no earlier neighbour could strictly improve |
| Reconstruction.RouteTakesEarliestLinks | Pathfinding.py:161-188 | a predecessor chain from the start takes an earliest link into each of its vertices |
| Reconstruction.LinkIsEarliest | Pathfinding.py:161-166 | one link of a predecessor chain is earliest: no lighter path from the start offers its head as short a way in |
| Reconstruction.DetoursAreHeavier | Pathfinding.py:161-166 | if `x` is the predecessor of `v`, every path from the start strictly lighter than the way to `x` that ends at a neighbour of `v` reaches `v` strictly more heavily |
| Reconstruction.WalkBack | Pathfinding.py:181-186 | the backward walk terminates; it returns a non-empty chain that ends at `end`, in which each vertex is the recorded predecessor of the next, and which begins at a vertex without predecessor; visit rounds strictly increase along it, so no vertex repeats |
| Reconstruction.RouteIsShortest | Pathfinding.py:184-188 | the walked chain is `[end]` with no path when `end` is unreachable, and otherwise a shortest path from the start of weight `progress[end]` |
| Reconstruction.PrefixesOfChainAreShortest | Pathfinding.py:184-188 | every prefix of the returned route is itself a shortest path from the start |
| Reconstruction.PrefixIsShortest | Pathfinding.py:184-188 | the prefix of a predecessor chain ending at any of its vertices is a shortest path to that vertex |
| Sample.SampleShape | Pathfinding.py:194-207 | the sample's `add_vertex`/`add_edge` calls give vertices a-e, the adjacency lists a:[b,c,d], b:[a,d], c:[a,d], d:[a,b,c,e], e:[d], the six symmetric weights, and a well-formed graph |
| Sample.OnlyRouteOfWeight12 | Pathfinding.py:202-207 | in the sample graph, a-d-e is the only path from `a` to `e` of weight 12 |
| Sample.SampleQuery | Pathfinding.py:194-207 | `short_path` on the sample graph from `a` to `e` returns `(['a','d','e'], 12)`: a-d-e (12) beats a-b-d-e (13) and a-c-d-e (14) |
| Sample.QueryAToE | Pathfinding.py:194-207 | the same answer on any graph with the sample's lists and weights |
| Sample.EdgeOnlyGraphNotClosed | Pathfinding.py:31-43 | after `add_vertex('a')` and `add_edge('a','z',1)`, `z` is a neighbour of `a` but not a vertex, so the graph is not closed under adjacency |
| Sample.QueryEdgeOnlyEndpoint | Pathfinding.py:174-175 | on that graph `short_path(g, 'a', 'z')` fails with the missing-vertex error |
| TieSample.TieGraphIsTieLike | Pathfinding.py:31-43 | the calls `add_vertex` s, u, a, t and `add_edge` s-u 1, u-t 3, s-a 2, a-t 2 give lists s:[u,a], u:[s,t], a:[s,t], t:[u,a], symmetric weights and a well-formed graph |
| TieSample.OnlyEarliestRoute | Pathfinding.py:158-166 | on that graph the only simple route from `s` to `t` of weight 4 that takes earliest links is s-u-t: entering `t` from `a` loses to the lighter `u` |
| TieSample.QueryTieOn | Pathfinding.py:171-188 | `short_path(g, 's', 't')` on any graph of that shape returns `(['s','u','t'], 4)`, not the equally light s-a-t |
| TieSample.QueryTie | Pathfinding.py:158-188 | the same answer on the graph the calls build |
| Sample.QueryZeroWeightSelf | Pathfinding.py:181-188 | with vertices `s`, `x` and a zero-weight edge between them, `short_path(g, 's', 's')` returns `(['s'], 0)`, not the equally light `s-x-s` |

## Left out

- The `Database` class (lines 46-112): sqlite storage and `pickle` serialisation of edge records. This is I/O through libraries that are not part of this model.
- The commented-out `__main__` driver and its print loops (lines 190-238). Its first sample graph is used only as data, in `Sample`.
- Floating-point weights and negative weights. Weights are `nat`, and `math.inf` is the `Inf` constructor.
  - With a negative self-loop weight, the program would make a vertex its own predecessor, and `short_path` would then loop forever. The model's weight type excludes this case.
  - An `InvalidWeight` error is not in the code, so it is not in the model.
- Which minimum `min` returns when several unvisited vertices tie. This depends on hash order. The model picks any minimum, and every contract holds for every choice.
- The insertion side effect of reading a missing key of the `defaultdict` at line 155. A missing key reads as an empty list and changes nothing.
- The exception type: `TypeError` becomes the `VertexNotInGraph` failure.
  - `dijkstra` with a start outside the vertex set is excluded by a precondition. `short_path` never calls it that way (line 174 checks first), and a direct call does not return shortest paths:
    - On a graph with no vertices the loop never runs, and the result is `({start: 0}, {})`.
    - Otherwise `progress` gains the start as an extra key and `visited` can never equal `graph.vertices`. If the start has a neighbour outside the vertex set, line 161 raises `KeyError` in the first round. Otherwise every key is visited after one more round than there are vertices, and `min` at line 152 then raises `ValueError` on an empty sequence.
  - A neighbour outside the vertex set (the `KeyError` at line 161) is also excluded by a precondition of `dijkstra`. `short_path` on such a graph is still modelled when an endpoint is missing.
- Performance and priority queues.

=== FILE: distances.dfy ===
/** Distances from the start vertex, with an explicit infinity in place of `math.inf`. */
module Distances {

  /** A finite non-negative distance, or `Inf` for "no route found yet". */
  datatype Dist = Fin(n: nat) | Inf {

    /** `d + w` with float-infinity arithmetic: infinity absorbs any finite weight. */
    function Plus(w: nat): (r: Dist)
      ensures r.Inf? <==> this.Inf?
      ensures r.Fin? ==> r.n == this.n + w
    {
      match this
      case Fin(k) => Fin(k + w)
      case Inf => Inf
    }

    /** `this < other`, as Python compares numbers with `math.inf`. */
    predicate Below(other: Dist): (b: bool)
      ensures b ==> this.Fin? && this != other
      ensures this.Fin? && other.Inf? ==> b
      ensures this.Fin? && other.Fin? ==> (b <==> this.n < other.n)
    {
      match this
      case Fin(a) => other.Inf? || a < other.n
      case Inf => false
    }

    /** `this <= other`. */
    predicate AtMost(other: Dist) {
      !other.Below(this)
    }
  }

  /** `AtMost` is a total preorder, the order `min(..., key=progress.get)` relies on. */
  lemma AtMostTotalPreorder(a: Dist, b: Dist, c: Dist)
    ensures a.AtMost(b) || b.AtMost(a)
    ensures a.AtMost(b) && b.AtMost(c) ==> a.AtMost(c)
    ensures a.Below(b) ==> a.AtMost(b) && !b.AtMost(a)
  {
  }

  /** Adding a non-negative weight never makes a distance smaller. */
  lemma PlusGrows(d: Dist, w: nat)
    ensures d.AtMost(d.Plus(w))
    ensures !d.Plus(w).Below(d)
    ensures d.Plus(w).Below(Inf) <==> d.Fin?
  {
  }

  /** Adding the same weight to both sides keeps `AtMost`. */
  lemma PlusMonotone(a: Dist, b: Dist, w: nat)
    requires a.AtMost(b)
    ensures a.Plus(w).AtMost(b.Plus(w))
  {
  }

  /** Two distances each at most the other are equal. */
  lemma AtMostAntisymmetric(a: Dist, b: Dist)
    requires a.AtMost(b) && b.AtMost(a)
    ensures a == b
  {
  }
}

=== FILE: graphs.dfy ===
/** The in-memory undirected weighted graph of `Pathfinding.py` (class `Graph`). */
module Graphs {

  /** Vertex identifiers are opaque names such as "ECG-15" or "Main Entrance". */
  type Vertex = string

  /** `vertices` is the vertex set, `edges` the adjacency lists (in insertion
      order, duplicates kept), `weights` the weight of each ordered pair. */
  datatype Graph = Graph(
    vertices: set<Vertex>,
    edges: map<Vertex, seq<Vertex>>,
    weights: map<(Vertex, Vertex), nat>)

  /** Reading `edges[v]` of the `defaultdict(list)`: a missing key reads as an empty list. */
  function Neighbors(g: Graph, v: Vertex): (r: seq<Vertex>)
    ensures v in g.edges ==> r == g.edges[v]
    ensures v !in g.edges ==> r == []
  {
    if v in g.edges then g.edges[v] else []
  }

  /** Every entry of an adjacency list has a recorded weight. */
  ghost predicate Weighted(g: Graph) {
    forall u, v :: v in Neighbors(g, u) ==> (u, v) in g.weights
  }

  /** Edges are undirected: adjacency is mutual and both directions weigh the same. */
  ghost predicate Symmetric(g: Graph) {
    forall u, v :: v in Neighbors(g, u) ==>
      && u in Neighbors(g, v)
      && (u, v) in g.weights && (v, u) in g.weights
      && g.weights[(v, u)] == g.weights[(u, v)]
  }

  /** The neighbours of every vertex are vertices themselves. */
  ghost predicate Closed(g: Graph) {
    forall u, v :: u in g.vertices && v in Neighbors(g, u) ==> v in g.vertices
  }

  /** The graph invariant of the data model, plus closure under adjacency. */
  ghost predicate WellFormed(g: Graph) {
    Weighted(g) && Symmetric(g) && Closed(g)
  }

  /** `Graph()`: no vertices, no edges, no weights. */
  function Empty(): (g: Graph)
    ensures WellFormed(g)
    ensures g.vertices == {}
    ensures forall v :: Neighbors(g, v) == []
    ensures g.weights == map[]
  {
    Graph({}, map[], map[])
  }

  /** `add_vertex`: a set insert that leaves adjacency and weights alone. */
  function AddVertex(g: Graph, v: Vertex): (r: Graph)
    ensures v in r.vertices
    ensures forall x :: x != v ==> (x in r.vertices <==> x in g.vertices)
    ensures r.edges == g.edges && r.weights == g.weights
    ensures v in g.vertices ==> r == g
  {
    g.(vertices := g.vertices + {v})
  }

  /** `add_edge(u, v, d)`. The `u == v` test does nothing, so a self-loop is
      recorded like any other edge: `u` is appended to its own list twice. */
  function AddEdge(g: Graph, u: Vertex, v: Vertex, d: nat): (r: Graph)
    ensures r.vertices == g.vertices
    ensures u != v ==> Neighbors(r, u) == Neighbors(g, u) + [v]
    ensures u != v ==> Neighbors(r, v) == Neighbors(g, v) + [u]
    ensures u == v ==> Neighbors(r, u) == Neighbors(g, u) + [u, u]
    ensures forall x :: x != u && x != v ==> Neighbors(r, x) == Neighbors(g, x)
    ensures r.weights.Keys == g.weights.Keys + {(u, v), (v, u)}
    ensures r.weights[(u, v)] == d && r.weights[(v, u)] == d
    ensures forall k :: k in g.weights && k != (u, v) && k != (v, u) ==> r.weights[k] == g.weights[k]
  {
    var fromList := Neighbors(g, u) + [v];
    var edges1 := g.edges[u := fromList];
    var toList := (if v in edges1 then edges1[v] else []) + [u];
    Graph(g.vertices, edges1[v := toList], g.weights[(u, v) := d][(v, u) := d])
  }

  /** Adding the same edge twice keeps the last weight and lists the neighbour twice. */
  lemma ReAddEdge(g: Graph, u: Vertex, v: Vertex, d1: nat, d2: nat)
    requires u != v
    ensures AddEdge(AddEdge(g, u, v, d1), u, v, d2).weights[(u, v)] == d2
    ensures Neighbors(AddEdge(AddEdge(g, u, v, d1), u, v, d2), u) == Neighbors(g, u) + [v, v]
    ensures Neighbors(AddEdge(AddEdge(g, u, v, d1), u, v, d2), v) == Neighbors(g, v) + [u, u]
  {
    var g1 := AddEdge(g, u, v, d1);
    assert Neighbors(g1, u) + [v] == Neighbors(g, u) + [v, v];
    assert Neighbors(g1, v) + [u] == Neighbors(g, v) + [u, u];
  }

  /** `add_vertex` keeps the graph well formed once the new vertex's existing
      neighbours are vertices too (edges may be added before their endpoints). */
  lemma AddVertexWellFormed(g: Graph, v: Vertex)
    requires WellFormed(g)
    requires forall x :: x in Neighbors(g, v) ==> x in g.vertices || x == v
    ensures WellFormed(AddVertex(g, v))
  {
  }

  /** `add_edge` keeps adjacency weighted and symmetric, whatever its arguments. */
  lemma {:induction false} AddEdgeConsistent(g: Graph, u: Vertex, v: Vertex, d: nat)
    requires Weighted(g) && Symmetric(g)
    ensures Weighted(AddEdge(g, u, v, d)) && Symmetric(AddEdge(g, u, v, d))
  {
    var r := AddEdge(g, u, v, d);
    forall x, y | y in Neighbors(r, x)
      ensures (x, y) in r.weights
      ensures x in Neighbors(r, y) && (y, x) in r.weights && r.weights[(y, x)] == r.weights[(x, y)]
    {
      if (x == u && y == v) || (x == v && y == u) {
      } else {
        assert y in Neighbors(g, x) by {
          if x == u || x == v {
            assert Neighbors(r, x) == Neighbors(g, x) + [v] || Neighbors(r, x) == Neighbors(g, x) + [u]
              || Neighbors(r, x) == Neighbors(g, x) + [u, u];
          }
        }
        assert x in Neighbors(g, y);
        assert (x, y) != (u, v) && (x, y) != (v, u);
      }
    }
  }

  /** `add_edge` between two vertices keeps the graph well formed. */
  lemma AddEdgeWellFormed(g: Graph, u: Vertex, v: Vertex, d: nat)
    requires WellFormed(g) && u in g.vertices && v in g.vertices
    ensures WellFormed(AddEdge(g, u, v, d))
  {
    AddEdgeConsistent(g, u, v, d);
    var r := AddEdge(g, u, v, d);
    forall x, y | x in r.vertices && y in Neighbors(r, x)
      ensures y in r.vertices
    {
      if y != u && y != v {
        assert y in Neighbors(g, x) by {
          if x == u || x == v {
            assert Neighbors(r, x) == Neighbors(g, x) + [v] || Neighbors(r, x) == Neighbors(g, x) + [u]
              || Neighbors(r, x) == Neighbors(g, x) + [u, u];
          }
        }
      }
    }
  }
}

=== FILE: optimality.dfy ===
/** What the final state of `dijkstra` says about shortest paths. */
module Optimality {
  import opened Options
  import opened Distances
  import opened Graphs
  import opened Paths
  import opened ShortestPaths

  /** The facts about the predecessor map that reconstruction relies on. */
  ghost predicate PredecessorTree(g: Graph, start: Vertex, progress: Progress, preds: Predecessors) {
    && Covers(g, progress, preds)
    && StartSettled(start, progress, preds)
    && PredecessorsConsistent(g, progress, preds)
    && UnreachedUntouched(start, progress, preds)
  }

  /** `u` is the recorded predecessor of `v`. */
  ghost predicate LinkedBy(preds: Predecessors, u: Vertex, v: Vertex) {
    v in preds && preds[v] == Some(u)
  }

  /** Following `predecessors` backward from the last vertex of `p` visits `p` in reverse. */
  ghost predicate PredecessorChain(preds: Predecessors, p: seq<Vertex>) {
    forall i :: 0 <= i < |p| - 1 ==> LinkedBy(preds, p[i], p[i + 1])
  }

  /** No path from the start is shorter than the recorded distance of its end;
      in particular every vertex reachable from the start has a finite distance. */
  lemma {:induction false} DistanceIsLowerBound(g: Graph, start: Vertex, progress: Progress, p: seq<Vertex>)
    requires Closed(g) && start in g.vertices && progress.Keys == g.vertices
    requires progress[start] == Fin(0) && TriangleInequality(g, progress)
    requires IsPath(g, p) && p[0] == start
    ensures p[|p| - 1] in progress && progress[p[|p| - 1]].AtMost(Fin(PathWeight(g, p)))
    decreases |p|
  {
    PathStaysInGraph(g, p);
    if |p| > 1 {
      var q := p[..|p| - 1];
      PathWeightLast(g, p);
      DistanceIsLowerBound(g, start, progress, q);
      var u, v := p[|p| - 2], p[|p| - 1];
      assert q[|q| - 1] == u;
      assert v in Neighbors(g, u);
      var w := g.weights[(u, v)];
      assert RelaxedFrom(g, progress, u);
      PlusMonotone(progress[u], Fin(PathWeight(g, q)), w);
      AtMostTotalPreorder(progress[v], progress[u].Plus(w), Fin(PathWeight(g, q)).Plus(w));
    }
  }

  /** A predecessor chain that begins at a vertex without predecessor and ends
      at a reached vertex is a path from the start whose weight is that vertex's distance. */
  lemma {:induction false} ChainIsShortestPath(g: Graph, start: Vertex, progress: Progress, preds: Predecessors,
                                               p: seq<Vertex>)
    requires PredecessorTree(g, start, progress, preds)
    requires |p| > 0 && p[|p| - 1] in g.vertices && progress[p[|p| - 1]].Fin?
    requires PredecessorChain(preds, p) && p[0] in preds && preds[p[0]] == None
    ensures PathFromTo(g, p, start, p[|p| - 1])
    ensures PathWeight(g, p) == progress[p[|p| - 1]].n
    decreases |p|
  {
    if |p| == 1 {
    } else {
      var q := p[..|p| - 1];
      var u, v := p[|p| - 2], p[|p| - 1];
      assert LinkedBy(preds, u, v);
      assert PredecessorChain(preds, q) by {
        forall i | 0 <= i < |q| - 1 ensures LinkedBy(preds, q[i], q[i + 1]) {
          assert q[i] == p[i] && q[i + 1] == p[i + 1];
        }
      }
      ChainIsShortestPath(g, start, progress, preds, q);
      assert q[|q| - 1] == u;
      PathWeightSnoc(g, q, v);
      assert q + [v] == p;
    }
  }

  /** Every reached vertex has a path from the start, along predecessors,
      whose weight is exactly its distance. */
  lemma {:induction false} PathToReached(g: Graph, start: Vertex, progress: Progress, preds: Predecessors,
                                         rank: map<Vertex, nat>, v: Vertex) returns (p: seq<Vertex>)
    requires PredecessorTree(g, start, progress, preds)
    requires rank.Keys == g.vertices && PredecessorsEarlier(preds, rank)
    requires v in g.vertices && progress[v].Fin?
    ensures PathFromTo(g, p, start, v) && PathWeight(g, p) == progress[v].n
    ensures PredecessorChain(preds, p)
    decreases rank[v]
  {
    if preds[v] == None {
      assert v == start;
      p := [v];
    } else {
      var u := preds[v].value;
      assert u in rank && rank[u] < rank[v];
      assert v in Neighbors(g, u) && (u, v) in g.weights && progress[v] == progress[u].Plus(g.weights[(u, v)]);
      var q := PathToReached(g, start, progress, preds, rank, u);
      PathWeightSnoc(g, q, v);
      p := q + [v];
      forall i | 0 <= i < |p| - 1 ensures LinkedBy(preds, p[i], p[i + 1]) {
        if i < |p| - 2 { assert p[i] == q[i] && p[i + 1] == q[i + 1]; }
      }
    }
  }

  /** The recorded distance is finite exactly when some path from the start reaches the vertex. */
  lemma ReachedIffPath(g: Graph, start: Vertex, progress: Progress, preds: Predecessors,
                       rank: map<Vertex, nat>, v: Vertex)
    requires Closed(g) && Final(g, start, progress, preds, rank) && v in g.vertices
    ensures progress[v].Fin? <==> exists p :: PathFromTo(g, p, start, v)
  {
    if progress[v].Fin? {
      var p := PathToReached(g, start, progress, preds, rank, v);
    }
    forall p | PathFromTo(g, p, start, v) ensures progress[v].Fin? {
      DistanceIsLowerBound(g, start, progress, p);
    }
  }

  /** In an undirected graph, a path from `a` to `b` read backward goes from
      `b` to `a`, so `b`'s search finds `a` at least as near. */
  lemma ReverseDistanceAtMost(g: Graph, a: Vertex, b: Vertex,
                              progressA: Progress, predsA: Predecessors, rankA: map<Vertex, nat>,
                              progressB: Progress)
    requires Symmetric(g) && Closed(g) && b in g.vertices
    requires Final(g, a, progressA, predsA, rankA)
    requires progressB.Keys == g.vertices && progressB[b] == Fin(0) && TriangleInequality(g, progressB)
    ensures progressA[b].Fin? ==> progressB[a].AtMost(progressA[b])
  {
    if progressA[b].Fin? {
      var p := PathToReached(g, a, progressA, predsA, rankA, b);
      ReversePath(g, p);
      DistanceIsLowerBound(g, b, progressB, Reverse(p));
    }
  }

  /** In an undirected graph the distance from `a` to `b` equals the distance from `b` to `a`. */
  lemma DistanceSymmetric(g: Graph, a: Vertex, b: Vertex,
                          progressA: Progress, predsA: Predecessors, rankA: map<Vertex, nat>,
                          progressB: Progress, predsB: Predecessors, rankB: map<Vertex, nat>)
    requires WellFormed(g) && a in g.vertices && b in g.vertices
    requires Final(g, a, progressA, predsA, rankA)
    requires Final(g, b, progressB, predsB, rankB)
    ensures progressA[b] == progressB[a]
  {
    ReverseDistanceAtMost(g, a, b, progressA, predsA, rankA, progressB);
    ReverseDistanceAtMost(g, b, a, progressB, predsB, rankB, progressA);
    AtMostAntisymmetric(progressA[b], progressB[a]);
  }
}

=== FILE: options.dfy ===
/** Option and Result values used in place of Python's `None` and raised exceptions. */
module Options {

  /** A value that may be absent; `None` plays the role of Python's `None`. */
  datatype Option<+T> = None | Some(value: T)

  /** The outcome of an operation that may fail instead of raising an exception. */
  datatype Result<+T, +E> = Success(value: T) | Failure(error: E)
}

=== FILE: paths.dfy ===
/** Routes through a graph and their total weight. */
module Paths {
  import opened Graphs

  /** A non-empty vertex sequence whose consecutive vertices are adjacent and weighted. */
  ghost predicate IsPath(g: Graph, p: seq<Vertex>) {
    && |p| > 0
    && forall i :: 0 <= i < |p| - 1 ==> p[i + 1] in Neighbors(g, p[i]) && (p[i], p[i + 1]) in g.weights
  }

  /** A path that starts at `s` and ends at `t`. */
  ghost predicate PathFromTo(g: Graph, p: seq<Vertex>, s: Vertex, t: Vertex) {
    IsPath(g, p) && p[0] == s && p[|p| - 1] == t
  }

  /** The sum of the edge weights along a path. */
  ghost function PathWeight(g: Graph, p: seq<Vertex>): nat
    requires IsPath(g, p)
    decreases |p|
  {
    if |p| == 1 then 0
    else
      assert IsPath(g, p[1..]) by {
        forall i | 0 <= i < |p[1..]| - 1
          ensures p[1..][i + 1] in Neighbors(g, p[1..][i]) && (p[1..][i], p[1..][i + 1]) in g.weights
        {
          assert p[1..][i] == p[i + 1] && p[1..][i + 1] == p[i + 2];
        }
      }
      g.weights[(p[0], p[1])] + PathWeight(g, p[1..])
  }

  /** The reverse of a sequence. */
  function Reverse(p: seq<Vertex>): (r: seq<Vertex>)
    ensures |r| == |p|
    ensures forall i :: 0 <= i < |p| ==> r[i] == p[|p| - 1 - i]
  {
    if p == [] then [] else Reverse(p[1..]) + [p[0]]
  }

  /** A prefix of a path is a path. */
  lemma PrefixIsPath(g: Graph, p: seq<Vertex>, k: nat)
    requires IsPath(g, p) && 0 < k <= |p|
    ensures IsPath(g, p[..k])
  {
    forall i | 0 <= i < k - 1
      ensures p[..k][i + 1] in Neighbors(g, p[..k][i]) && (p[..k][i], p[..k][i + 1]) in g.weights
    {
      assert p[..k][i] == p[i] && p[..k][i + 1] == p[i + 1];
    }
  }

  /** Extending a path by one edge at its end adds that edge's weight. */
  lemma {:induction false} PathWeightSnoc(g: Graph, p: seq<Vertex>, x: Vertex)
    requires IsPath(g, p)
    requires x in Neighbors(g, p[|p| - 1]) && (p[|p| - 1], x) in g.weights
    ensures IsPath(g, p + [x])
    ensures PathWeight(g, p + [x]) == PathWeight(g, p) + g.weights[(p[|p| - 1], x)]
    decreases |p|
  {
    var q := p + [x];
    forall i | 0 <= i < |q| - 1
      ensures q[i + 1] in Neighbors(g, q[i]) && (q[i], q[i + 1]) in g.weights
    {
      if i < |p| - 1 {
        assert q[i] == p[i] && q[i + 1] == p[i + 1];
      }
    }
    if |p| > 1 {
      assert q[1..] == p[1..] + [x];
      assert IsPath(g, p[1..]) by { assert p[1..] == q[1..][..|p| - 1]; PrefixIsPath(g, q[1..], |p| - 1); }
      PathWeightSnoc(g, p[1..], x);
    }
  }

  /** Splitting off the last edge: the weight of a path is the weight of its
      prefix plus the weight of its final edge. */
  lemma PathWeightLast(g: Graph, p: seq<Vertex>)
    requires IsPath(g, p) && |p| > 1
    ensures IsPath(g, p[..|p| - 1])
    ensures PathWeight(g, p) == PathWeight(g, p[..|p| - 1]) + g.weights[(p[|p| - 2], p[|p| - 1])]
  {
    var q := p[..|p| - 1];
    PrefixIsPath(g, p, |p| - 1);
    assert p[|p| - 2 + 1] in Neighbors(g, p[|p| - 2]);
    PathWeightSnoc(g, q, p[|p| - 1]);
    assert q + [p[|p| - 1]] == p;
  }

  /** Every vertex of a path that starts at a vertex of a closed graph is a vertex. */
  lemma {:induction false} PathStaysInGraph(g: Graph, p: seq<Vertex>)
    requires Closed(g) && IsPath(g, p) && p[0] in g.vertices
    ensures forall i :: 0 <= i < |p| ==> p[i] in g.vertices
  {
    forall i | 0 <= i < |p|
      ensures p[i] in g.vertices
    {
      var j := 0;
      while j < i
        invariant j <= i && p[j] in g.vertices
      {
        assert p[j + 1] in Neighbors(g, p[j]);
        j := j + 1;
      }
    }
  }

  /** In an undirected graph a reversed path is a path of the same weight. */
  lemma {:induction false} ReversePath(g: Graph, p: seq<Vertex>)
    requires Symmetric(g) && IsPath(g, p)
    ensures IsPath(g, Reverse(p))
    ensures PathWeight(g, Reverse(p)) == PathWeight(g, p)
    decreases |p|
  {
    if |p| == 1 {
      assert Reverse(p) == p;
    } else {
      var tail := p[1..];
      assert IsPath(g, tail) by {
        assert tail == p[1..][..|tail|];
        forall i | 0 <= i < |tail| - 1
          ensures tail[i + 1] in Neighbors(g, tail[i]) && (tail[i], tail[i + 1]) in g.weights
        {
          assert tail[i] == p[i + 1] && tail[i + 1] == p[i + 2];
        }
      }
      ReversePath(g, tail);
      var rt := Reverse(tail);
      assert rt[|rt| - 1] == p[1];
      assert p[1] in Neighbors(g, p[0]);
      assert p[0] in Neighbors(g, p[1]);
      PathWeightSnoc(g, rt, p[0]);
      assert Reverse(p) == rt + [p[0]];
    }
  }
}

=== FILE: reconstruction.dfy ===
/** `short_path` of `Pathfinding.py`: check the endpoints, run the search,
    and walk the predecessors back from the destination. */
module Reconstruction {
  import opened Options
  import opened Distances
  import opened Graphs
  import opened Paths
  import opened ShortestPaths
  import opened Optimality

  /** The error raised (as a `TypeError`) when an endpoint is not a vertex. */
  datatype PathError = VertexNotInGraph

  /** The returned pair: the route from start to destination and its distance. */
  datatype Route = Route(path: seq<Vertex>, distance: Dist)

  /** The prefix of `p` that ends at `p[i]` is a path no longer than any
      other path between its ends. */
  ghost predicate ShortestPrefix(g: Graph, p: seq<Vertex>, i: nat)
    requires i < |p|
  {
    && IsPath(g, p[..i + 1])
    && forall q :: PathFromTo(g, q, p[0], p[i]) ==> PathWeight(g, p[..i + 1]) <= PathWeight(g, q)
  }

  /** Every prefix of `p` is a shortest path. */
  ghost predicate ShortestPrefixes(g: Graph, p: seq<Vertex>) {
    forall i :: 0 <= i < |p| ==> ShortestPrefix(g, p, i)
  }

  /** The route enters `p[i + 1]` from `p[i]` even though a neighbour `u` of
      `p[i + 1]` may lie nearer the start than `p[i]`: any path `q` to such a
      `u` that is lighter than the route up to `p[i]` makes the detour through
      `u` strictly heavier than the route up to `p[i + 1]`. Ties go to the
      vertex visited first, as the strict `<` at line 161 keeps it. */
  ghost predicate EarliestLink(g: Graph, start: Vertex, p: seq<Vertex>, i: nat)
    requires i < |p| - 1
  {
    && IsPath(g, p[..i + 1]) && IsPath(g, p[..i + 2])
    && forall q ::
         (&& IsPath(g, q) && q[0] == start && PathWeight(g, q) < PathWeight(g, p[..i + 1])
          && p[i + 1] in Neighbors(g, q[|q| - 1]) && (q[|q| - 1], p[i + 1]) in g.weights)
         ==> PathWeight(g, p[..i + 2]) < PathWeight(g, q) + g.weights[(q[|q| - 1], p[i + 1])]
  }

  /** Every step of `p` is an earliest link. */
  ghost predicate EarliestLinks(g: Graph, start: Vertex, p: seq<Vertex>) {
    forall i :: 0 <= i < |p| - 1 ==> EarliestLink(g, start, p, i)
  }

  /** The visit rounds strictly increase along `p`. */
  ghost predicate RanksIncrease(rank: map<Vertex, nat>, p: seq<Vertex>) {
    forall i, j :: 0 <= i < j < |p| ==> p[i] in rank && p[j] in rank && rank[p[i]] < rank[p[j]]
  }

  /** No vertex occurs twice in `p`. */
  predicate Simple(p: seq<Vertex>) {
    forall i, j :: 0 <= i < j < |p| ==> p[i] != p[j]
  }

  /** `short_path(graph, start, end)`. The walk stops at the first vertex
      without predecessor: the start when the destination was reached, the
      destination itself otherwise. Prepending each vertex builds the same
      sequence as appending and reversing at the end. */
  method ShortPath(g: Graph, start: Vertex, end: Vertex) returns (r: Result<Route, PathError>)
    requires start in g.vertices && end in g.vertices ==> Closed(g) && Weighted(g)
    ensures r.Failure? <==> start !in g.vertices || end !in g.vertices
    ensures r.Success? ==> |r.value.path| > 0 && r.value.path[|r.value.path| - 1] == end
    ensures r.Success? && r.value.distance.Inf? ==>
      && r.value.path == [end]
      && forall q :: !PathFromTo(g, q, start, end)
    ensures r.Success? && r.value.distance.Fin? ==>
      && PathFromTo(g, r.value.path, start, end)
      && PathWeight(g, r.value.path) == r.value.distance.n
      && (forall q :: PathFromTo(g, q, start, end) ==> r.value.distance.n <= PathWeight(g, q))
      && ShortestPrefixes(g, r.value.path)
    ensures r.Success? ==> Simple(r.value.path)
    ensures r.Success? ==> EarliestLinks(g, start, r.value.path)
    ensures start == end && start in g.vertices ==> r == Success(Route([end], Fin(0)))
  {
    if start !in g.vertices || end !in g.vertices {
      return Failure(VertexNotInGraph);
    }
    var progress, preds, rank := Dijkstra(g, start);
    var path := WalkBack(g, progress, preds, rank, end);
    RouteIsShortest(g, start, end, progress, preds, rank, path);
    assert |path| > 1 ==> LinkedBy(preds, path[|path| - 2], path[|path| - 1]);
    assert start == end ==> path == [end] && progress[end] == Fin(0);
    RouteTakesEarliestLinks(g, start, progress, preds, rank, path);
    r := Success(Route(path, progress[end]));
  }

  /** `Pathfinding.py` lines 181-186: starting from `end`, collect vertices while following
      `predecessors` until a vertex has none. The visit numbers strictly
      decrease along the walk, so it ends. */
  method WalkBack(g: Graph, progress: Progress, preds: Predecessors, ghost rank: map<Vertex, nat>, end: Vertex)
    returns (path: seq<Vertex>)
    requires Covers(g, progress, preds) && PredecessorsConsistent(g, progress, preds)
    requires rank.Keys == g.vertices && PredecessorsEarlier(preds, rank)
    requires end in g.vertices
    ensures |path| > 0 && path[|path| - 1] == end
    ensures path[0] in preds && preds[path[0]] == None
    ensures PredecessorChain(preds, path)
    ensures RanksIncrease(rank, path)
  {
    path := [];
    var vertex: Option<Vertex> := Some(end);
    while vertex.Some?
      invariant vertex.Some? ==> vertex.value in g.vertices
      invariant path == [] ==> vertex == Some(end)
      invariant path != [] ==> path[|path| - 1] == end && path[0] in preds && vertex == preds[path[0]]
      invariant PredecessorChain(preds, path)
      invariant forall i :: 0 <= i < |path| ==> path[i] in g.vertices
      invariant RanksIncrease(rank, path)
      invariant vertex.Some? && path != [] ==> rank[vertex.value] < rank[path[0]]
      decreases if vertex.Some? then rank[vertex.value] + 1 else 0
    {
      var v := vertex.value;
      path := [v] + path;
      vertex := preds[v];
    }
  }

  /** The walked chain is the answer `short_path` promises: a shortest path from
      the start when the destination was reached, `[end]` otherwise. */
  lemma RouteIsShortest(g: Graph, start: Vertex, end: Vertex, progress: Progress, preds: Predecessors,
                        rank: map<Vertex, nat>, path: seq<Vertex>)
    requires Closed(g) && start in g.vertices && end in g.vertices
    requires Final(g, start, progress, preds, rank)
    requires |path| > 0 && path[|path| - 1] == end
    requires path[0] in preds && preds[path[0]] == None
    requires PredecessorChain(preds, path)
    ensures progress[end].Inf? ==> path == [end] && forall q :: !PathFromTo(g, q, start, end)
    ensures progress[end].Fin? ==>
      && PathFromTo(g, path, start, end)
      && PathWeight(g, path) == progress[end].n
      && (forall q :: PathFromTo(g, q, start, end) ==> progress[end].n <= PathWeight(g, q))
      && ShortestPrefixes(g, path)
  {
    assert |path| > 1 ==> LinkedBy(preds, path[|path| - 2], path[|path| - 1]);
    if progress[end].Inf? {
      forall q | PathFromTo(g, q, start, end) ensures false {
        DistanceIsLowerBound(g, start, progress, q);
      }
    } else {
      ChainIsShortestPath(g, start, progress, preds, path);
      forall q | PathFromTo(g, q, start, end) ensures progress[end].n <= PathWeight(g, q) {
        DistanceIsLowerBound(g, start, progress, q);
      }
      PrefixesOfChainAreShortest(g, start, progress, preds, path);
    }
  }

  /** A predecessor chain from the start takes only earliest links. */
  lemma RouteTakesEarliestLinks(g: Graph, start: Vertex, progress: Progress, preds: Predecessors,
                                rank: map<Vertex, nat>, p: seq<Vertex>)
    requires Closed(g) && start in g.vertices
    requires Final(g, start, progress, preds, rank)
    requires |p| > 0 && p[0] in preds && preds[p[0]] == None
    requires PredecessorChain(preds, p)
    ensures EarliestLinks(g, start, p)
  {
    forall i | 0 <= i < |p| - 1 ensures EarliestLink(g, start, p, i) {
      LinkIsEarliest(g, start, progress, preds, rank, p, i);
    }
  }

  /** A prefix of a predecessor chain is a predecessor chain. */
  lemma ChainPrefix(preds: Predecessors, p: seq<Vertex>, k: nat)
    requires PredecessorChain(preds, p) && 0 < k <= |p|
    ensures PredecessorChain(preds, p[..k])
  {
    forall j | 0 <= j < k - 1 ensures LinkedBy(preds, p[..k][j], p[..k][j + 1]) {
      assert p[..k][j] == p[j] && p[..k][j + 1] == p[j + 1];
    }
  }

  /** One link of a predecessor chain is an earliest link. */
  lemma LinkIsEarliest(g: Graph, start: Vertex, progress: Progress, preds: Predecessors,
                       rank: map<Vertex, nat>, p: seq<Vertex>, i: nat)
    requires Closed(g) && start in g.vertices
    requires Final(g, start, progress, preds, rank)
    requires |p| > 0 && p[0] in preds && preds[p[0]] == None
    requires PredecessorChain(preds, p)
    requires i < |p| - 1
    ensures EarliestLink(g, start, p, i)
  {
    var x, v := p[i], p[i + 1];
    assert LinkedBy(preds, x, v);
    var p1, p2 := p[..i + 1], p[..i + 2];
    ChainPrefix(preds, p, i + 1);
    ChainPrefix(preds, p, i + 2);
    assert p1[|p1| - 1] == x && p2[|p2| - 1] == v && p1[0] == p[0] && p2[0] == p[0];
    ChainIsShortestPath(g, start, progress, preds, p1);
    ChainIsShortestPath(g, start, progress, preds, p2);
    DetoursAreHeavier(g, start, progress, preds, rank, p1, p2, x, v);
  }

  /** `p1` reaches `x` and `p2` reaches `v`, both at their recorded distances,
      and `x` is `v`'s predecessor. A path `q` lighter than `p1` puts its end
      `u` strictly nearer than `x`, so `u` was visited before `x`, and `x` was
      kept against `u`'s offer only because that offer was strictly worse. */
  lemma DetoursAreHeavier(g: Graph, start: Vertex, progress: Progress, preds: Predecessors,
                          rank: map<Vertex, nat>, p1: seq<Vertex>, p2: seq<Vertex>, x: Vertex, v: Vertex)
    requires Closed(g) && start in g.vertices && progress.Keys == g.vertices && rank.Keys == g.vertices
    requires progress[start] == Fin(0) && TriangleInequality(g, progress)
    requires DistanceOrder(progress, rank) && EarliestPredecessor(g, progress, preds, rank)
    requires x in g.vertices && v in g.vertices && v in preds && preds[v] == Some(x)
    requires IsPath(g, p1) && progress[x] == Fin(PathWeight(g, p1))
    requires IsPath(g, p2) && progress[v] == Fin(PathWeight(g, p2))
    ensures forall q ::
      (&& IsPath(g, q) && q[0] == start && PathWeight(g, q) < PathWeight(g, p1)
       && v in Neighbors(g, q[|q| - 1]) && (q[|q| - 1], v) in g.weights)
      ==> PathWeight(g, p2) < PathWeight(g, q) + g.weights[(q[|q| - 1], v)]
  {
    forall q | IsPath(g, q) && q[0] == start && PathWeight(g, q) < PathWeight(g, p1)
         && v in Neighbors(g, q[|q| - 1]) && (q[|q| - 1], v) in g.weights
      ensures PathWeight(g, p2) < PathWeight(g, q) + g.weights[(q[|q| - 1], v)]
    {
      var u := q[|q| - 1];
      DistanceIsLowerBound(g, start, progress, q);
      DetourIsHeavier(progress, preds, rank, x, v, u, g.weights[(u, v)], g);
    }
  }

  /** A vertex `u` strictly nearer than the predecessor `x` of `v` was visited
      before `x`, so its offer for `v` is strictly worse than `v`'s distance. */
  lemma DetourIsHeavier(progress: Progress, preds: Predecessors, rank: map<Vertex, nat>,
                        x: Vertex, v: Vertex, u: Vertex, w: nat, g: Graph)
    requires rank.Keys == progress.Keys && x in rank && u in rank && v in progress && v in preds
    requires DistanceOrder(progress, rank) && EarliestPredecessor(g, progress, preds, rank)
    requires preds[v] == Some(x)
    requires v in Neighbors(g, u) && (u, v) in g.weights && g.weights[(u, v)] == w
    requires progress[u].Below(progress[x])
    ensures progress[v].Below(progress[u].Plus(w))
  {
  }

  /** Every prefix of a predecessor chain from the start is itself a shortest path. */
  lemma PrefixesOfChainAreShortest(g: Graph, start: Vertex, progress: Progress, preds: Predecessors,
                                   p: seq<Vertex>)
    requires Closed(g) && start in g.vertices
    requires PredecessorTree(g, start, progress, preds) && TriangleInequality(g, progress)
    requires IsPath(g, p) && p[0] == start
    requires PredecessorChain(preds, p)
    ensures ShortestPrefixes(g, p)
  {
    forall i | 0 <= i < |p|
      ensures ShortestPrefix(g, p, i)
    {
      PrefixIsShortest(g, start, progress, preds, p, i);
    }
  }

  /** The prefix of a predecessor chain from the start that ends at `p[i]` is a shortest path. */
  lemma PrefixIsShortest(g: Graph, start: Vertex, progress: Progress, preds: Predecessors,
                         p: seq<Vertex>, i: nat)
    requires Closed(g) && start in g.vertices
    requires PredecessorTree(g, start, progress, preds) && TriangleInequality(g, progress)
    requires IsPath(g, p) && p[0] == start
    requires PredecessorChain(preds, p)
    requires i < |p|
    ensures ShortestPrefix(g, p, i)
  {
    var pre := p[..i + 1];
    PrefixIsPath(g, p, i + 1);
    assert PredecessorChain(preds, pre) by {
      forall j | 0 <= j < |pre| - 1 ensures LinkedBy(preds, pre[j], pre[j + 1]) {
        assert pre[j] == p[j] && pre[j + 1] == p[j + 1];
      }
    }
    DistanceIsLowerBound(g, start, progress, pre);
    assert pre[|pre| - 1] == p[i];
    ChainIsShortestPath(g, start, progress, preds, pre);
    forall q | PathFromTo(g, q, p[0], p[i]) ensures PathWeight(g, pre) <= PathWeight(g, q) {
      DistanceIsLowerBound(g, start, progress, q);
    }
  }
}

=== FILE: sample.dfy ===
/** The first sample graph of `Pathfinding.py` (five vertices a-e, six edges)
    and the answer `short_path` gives on it from `a` to `e`. */
module Sample {
  import opened Options
  import opened Distances
  import opened Graphs
  import opened Paths
  import opened ShortestPaths
  import opened Optimality
  import opened Reconstruction

  /** `Pathfinding.py` lines 194-200: the five `add_vertex` calls. */
  function SampleVertices(): Graph {
    AddVertex(AddVertex(AddVertex(AddVertex(AddVertex(Empty(), "a"), "b"), "c"), "d"), "e")
  }

  /** The sample's vertex names. */
  const Names: set<Vertex> := {"a", "b", "c", "d", "e"}

  /** `Pathfinding.py` lines 202-207: the six `add_edge` calls, applied to `g`. */
  function AddSampleEdges(g: Graph): Graph {
    var g1 := AddEdge(g, "a", "b", 5);
    var g2 := AddEdge(g1, "a", "c", 6);
    var g3 := AddEdge(g2, "a", "d", 10);
    var g4 := AddEdge(g3, "b", "d", 6);
    var g5 := AddEdge(g4, "c", "d", 6);
    AddEdge(g5, "d", "e", 2)
  }

  /** The sample graph of `Pathfinding.py` lines 194-207. */
  function SampleGraph(): Graph {
    AddSampleEdges(SampleVertices())
  }

  /** Five isolated vertices. */
  lemma SampleVerticesShape()
    ensures SampleVertices().vertices == Names
    ensures forall x :: Neighbors(SampleVertices(), x) == []
    ensures WellFormed(SampleVertices())
  {
    var g0 := Empty();
    var g1 := AddVertex(g0, "a");
    var g2 := AddVertex(g1, "b");
    var g3 := AddVertex(g2, "c");
    var g4 := AddVertex(g3, "d");
    AddVertexWellFormed(g0, "a");
    AddVertexWellFormed(g1, "b");
    AddVertexWellFormed(g2, "c");
    AddVertexWellFormed(g3, "d");
    AddVertexWellFormed(g4, "e");
  }

  /** The adjacency lists of all five vertices, as `[a, b, c, d, e]`. */
  ghost predicate Lists(g: Graph, la: seq<Vertex>, lb: seq<Vertex>, lc: seq<Vertex>, ld: seq<Vertex>, le: seq<Vertex>) {
    && Neighbors(g, "a") == la && Neighbors(g, "b") == lb && Neighbors(g, "c") == lc
    && Neighbors(g, "d") == ld && Neighbors(g, "e") == le
  }

  /** The undirected edge `{u, v}` weighs `d` in both directions. */
  ghost predicate EdgeWeighs(g: Graph, u: Vertex, v: Vertex, d: nat) {
    (u, v) in g.weights && (v, u) in g.weights && g.weights[(u, v)] == d && g.weights[(v, u)] == d
  }

  /** The six weights of `Pathfinding.py` lines 202-207. */
  ghost predicate SampleWeights(g: Graph) {
    && EdgeWeighs(g, "a", "b", 5) && EdgeWeighs(g, "a", "c", 6) && EdgeWeighs(g, "a", "d", 10)
    && EdgeWeighs(g, "b", "d", 6) && EdgeWeighs(g, "c", "d", 6) && EdgeWeighs(g, "d", "e", 2)
  }

  /** One lemma per `add_edge` call: the lists and weights after it. */
  lemma EdgeAB(g: Graph)
    requires Lists(g, [], [], [], [], [])
    ensures Lists(AddEdge(g, "a", "b", 5), ["b"], ["a"], [], [], [])
    ensures EdgeWeighs(AddEdge(g, "a", "b", 5), "a", "b", 5)
  {}
  lemma EdgeAC(g: Graph)
    requires Lists(g, ["b"], ["a"], [], [], [])
    requires EdgeWeighs(g, "a", "b", 5)
    ensures Lists(AddEdge(g, "a", "c", 6), ["b", "c"], ["a"], ["a"], [], [])
    ensures EdgeWeighs(AddEdge(g, "a", "c", 6), "a", "b", 5)
    ensures EdgeWeighs(AddEdge(g, "a", "c", 6), "a", "c", 6)
  {}
  lemma EdgeAD(g: Graph)
    requires Lists(g, ["b", "c"], ["a"], ["a"], [], [])
    requires EdgeWeighs(g, "a", "b", 5) && EdgeWeighs(g, "a", "c", 6)
    ensures Lists(AddEdge(g, "a", "d", 10), ["b", "c", "d"], ["a"], ["a"], ["a"], [])
    ensures EdgeWeighs(AddEdge(g, "a", "d", 10), "a", "b", 5)
    ensures EdgeWeighs(AddEdge(g, "a", "d", 10), "a", "c", 6)
    ensures EdgeWeighs(AddEdge(g, "a", "d", 10), "a", "d", 10)
  {}
  lemma EdgeBD(g: Graph)
    requires Lists(g, ["b", "c", "d"], ["a"], ["a"], ["a"], [])
    requires EdgeWeighs(g, "a", "b", 5) && EdgeWeighs(g, "a", "c", 6) && EdgeWeighs(g, "a", "d", 10)
    ensures Lists(AddEdge(g, "b", "d", 6), ["b", "c", "d"], ["a", "d"], ["a"], ["a", "b"], [])
    ensures EdgeWeighs(AddEdge(g, "b", "d", 6), "a", "b", 5)
    ensures EdgeWeighs(AddEdge(g, "b", "d", 6), "a", "c", 6)
    ensures EdgeWeighs(AddEdge(g, "b", "d", 6), "a", "d", 10)
    ensures EdgeWeighs(AddEdge(g, "b", "d", 6), "b", "d", 6)
  {}
  lemma EdgeCD(g: Graph)
    requires Lists(g, ["b", "c", "d"], ["a", "d"], ["a"], ["a", "b"], [])
    requires EdgeWeighs(g, "a", "b", 5) && EdgeWeighs(g, "a", "c", 6) && EdgeWeighs(g, "a", "d", 10)
    requires EdgeWeighs(g, "b", "d", 6)
    ensures Lists(AddEdge(g, "c", "d", 6), ["b", "c", "d"], ["a", "d"], ["a", "d"], ["a", "b", "c"], [])
    ensures EdgeWeighs(AddEdge(g, "c", "d", 6), "a", "b", 5)
    ensures EdgeWeighs(AddEdge(g, "c", "d", 6), "a", "c", 6)
    ensures EdgeWeighs(AddEdge(g, "c", "d", 6), "a", "d", 10)
    ensures EdgeWeighs(AddEdge(g, "c", "d", 6), "b", "d", 6)
    ensures EdgeWeighs(AddEdge(g, "c", "d", 6), "c", "d", 6)
  {}
  lemma EdgeDE(g: Graph)
    requires Lists(g, ["b", "c", "d"], ["a", "d"], ["a", "d"], ["a", "b", "c"], [])
    requires EdgeWeighs(g, "a", "b", 5) && EdgeWeighs(g, "a", "c", 6) && EdgeWeighs(g, "a", "d", 10)
    requires EdgeWeighs(g, "b", "d", 6) && EdgeWeighs(g, "c", "d", 6)
    ensures Lists(AddEdge(g, "d", "e", 2), ["b", "c", "d"], ["a", "d"], ["a", "d"], ["a", "b", "c", "e"], ["d"])
    ensures SampleWeights(AddEdge(g, "d", "e", 2))
  {}

  /** The six edges added to five isolated vertices give these lists and keep the graph well formed. */
  lemma SampleEdgesShape(g: Graph)
    requires WellFormed(g) && g.vertices == Names
    requires Lists(g, [], [], [], [], [])
    ensures AddSampleEdges(g).vertices == Names
    ensures WellFormed(AddSampleEdges(g))
    ensures Lists(AddSampleEdges(g), ["b", "c", "d"], ["a", "d"], ["a", "d"], ["a", "b", "c", "e"], ["d"])
    ensures SampleWeights(AddSampleEdges(g))
  {
    var g1 := AddEdge(g, "a", "b", 5);
    var g2 := AddEdge(g1, "a", "c", 6);
    var g3 := AddEdge(g2, "a", "d", 10);
    var g4 := AddEdge(g3, "b", "d", 6);
    var g5 := AddEdge(g4, "c", "d", 6);
    EdgeAB(g); EdgeAC(g1); EdgeAD(g2); EdgeBD(g3); EdgeCD(g4); EdgeDE(g5);
    AddEdgeWellFormed(g, "a", "b", 5);
    AddEdgeWellFormed(g1, "a", "c", 6);
    AddEdgeWellFormed(g2, "a", "d", 10);
    AddEdgeWellFormed(g3, "b", "d", 6);
    AddEdgeWellFormed(g4, "c", "d", 6);
    AddEdgeWellFormed(g5, "d", "e", 2);
  }

  /** The adjacency lists the calls produce. */
  lemma SampleShape()
    ensures SampleGraph().vertices == Names
    ensures WellFormed(SampleGraph())
    ensures Lists(SampleGraph(), ["b", "c", "d"], ["a", "d"], ["a", "d"], ["a", "b", "c", "e"], ["d"])
    ensures SampleWeights(SampleGraph())
  {
    SampleVerticesShape();
    SampleEdgesShape(SampleVertices());
  }

  /** Everything the query below needs to know about the sample graph. */
  ghost predicate SampleLike(g: Graph) {
    && g.vertices == Names
    && WellFormed(g)
    && Lists(g, ["b", "c", "d"], ["a", "d"], ["a", "d"], ["a", "b", "c", "e"], ["d"])
    && SampleWeights(g)
  }

  /** The sample graph has the shape the query relies on. */
  lemma SampleGraphIsSampleLike()
    ensures SampleLike(SampleGraph())
  {
    SampleShape();
  }

  /** Distances 0, 5, 6, 10, 12 from `a`: they satisfy the triangle inequality,
      so no path from `a` is shorter than they say. */
  function Potential(): Progress {
    map["a" := Fin(0), "b" := Fin(5), "c" := Fin(6), "d" := Fin(10), "e" := Fin(12)]
  }

  /** The potential is relaxed along every edge out of `u`. */
  lemma PotentialRelaxedAt(g: Graph, u: Vertex)
    requires Lists(g, ["b", "c", "d"], ["a", "d"], ["a", "d"], ["a", "b", "c", "e"], ["d"])
    requires SampleWeights(g) && u in Names
    ensures RelaxedFrom(g, Potential(), u)
  {
    var pot := Potential();
    assert pot["a"] == Fin(0) && pot["b"] == Fin(5) && pot["c"] == Fin(6) && pot["d"] == Fin(10) && pot["e"] == Fin(12);
    forall v | v in Neighbors(g, u)
      ensures v in pot && (u, v) in g.weights && pot[v].AtMost(pot[u].Plus(g.weights[(u, v)]))
    {
      if u == "a" {
        assert v == "b" || v == "c" || v == "d";
      } else if u == "b" {
        assert v == "a" || v == "d";
      } else if u == "c" {
        assert v == "a" || v == "d";
      } else if u == "d" {
        assert v == "a" || v == "b" || v == "c" || v == "e";
      } else {
        assert v == "d";
      }
    }
  }

  /** The potential satisfies the triangle inequality over the whole sample graph. */
  lemma PotentialRelaxed(g: Graph)
    requires SampleLike(g)
    ensures TriangleInequality(g, Potential())
  {
    forall u | u in g.vertices ensures RelaxedFrom(g, Potential(), u) {
      PotentialRelaxedAt(g, u);
    }
  }

  /** No path from `a` is shorter than the potential of its end. */
  lemma PotentialIsLowerBound(g: Graph, p: seq<Vertex>)
    requires SampleLike(g) && IsPath(g, p) && p[0] == "a"
    ensures p[|p| - 1] in Potential() && Potential()[p[|p| - 1]].AtMost(Fin(PathWeight(g, p)))
  {
    var pot := Potential();
    assert pot.Keys == Names;
    PotentialRelaxed(g);
    DistanceIsLowerBound(g, "a", pot, p);
  }

  /** In the sample graph, `a, d, e` is the only path from `a` to `e` of weight 12. */
  lemma OnlyRouteOfWeight12(g: Graph, p: seq<Vertex>)
    requires SampleLike(g) && PathFromTo(g, p, "a", "e") && PathWeight(g, p) == 12
    ensures p == ["a", "d", "e"]
  {
    PathStaysInGraph(g, p);
    var n := |p|;
    assert n >= 2;
    var x := p[n - 2];
    assert p[n - 1] in Neighbors(g, x);
    assert x == "d" by {
      assert x in Names;
    }
    PathWeightLast(g, p);
    var p1 := p[..n - 1];
    assert PathWeight(g, p1) == 10;
    assert n >= 3 by { assert p1[0] == "a" && p1[|p1| - 1] == "d"; }
    var y := p[n - 3];
    assert p1[|p1| - 2] == y && p1[|p1| - 1] == "d";
    assert "d" in Neighbors(g, y);
    PathWeightLast(g, p1);
    var p2 := p1[..|p1| - 1];
    PotentialIsLowerBound(g, p2);
    assert y in Names;
    assert y == "a";
    assert PathWeight(g, p2) == 0;
    assert |p2| == 1;
  }

  /** `short_path(Graph, 'a', 'e')` on the sample graph: the direct route
      a-d-e of length 12 beats a-b-d-e (13) and a-c-d-e (14). */
  method SampleQuery() returns (r: Result<Route, PathError>)
    ensures r == Success(Route(["a", "d", "e"], Fin(12)))
  {
    var g := SampleGraph();
    SampleGraphIsSampleLike();
    r := QueryAToE(g);
  }

  /** A graph where `z` is known only as an endpoint of an edge:
      `add_vertex('a')` followed by `add_edge('a', 'z', 1)`. */
  function EdgeOnlyGraph(): Graph {
    AddEdge(AddVertex(Empty(), "a"), "a", "z", 1)
  }

  /** `z` is a neighbour of `a` without being a vertex, so the graph is not
      closed under adjacency. */
  lemma EdgeOnlyGraphNotClosed()
    ensures "z" !in EdgeOnlyGraph().vertices
    ensures "z" in Neighbors(EdgeOnlyGraph(), "a")
    ensures !Closed(EdgeOnlyGraph())
  {
    var g0 := AddVertex(Empty(), "a");
    assert Neighbors(g0, "a") == [];
  }

  /** `short_path(g, 'a', 'z')` on that graph raises at `Pathfinding.py` lines 174-175,
      before anything reads the adjacency lists. */
  method QueryEdgeOnlyEndpoint() returns (r: Result<Route, PathError>)
    ensures r == Failure(VertexNotInGraph)
  {
    var g := EdgeOnlyGraph();
    EdgeOnlyGraphNotClosed();
    r := ShortPath(g, "a", "z");
    assert r.Failure? && r.error.VertexNotInGraph?;
  }

  /** Vertices `s` and `x` joined by an edge of weight 0. */
  function ZeroEdgeGraph(): Graph {
    AddEdge(AddVertex(AddVertex(Empty(), "s"), "x"), "s", "x", 0)
  }

  /** `short_path(g, 's', 's')` on that graph returns `(['s'], 0)`: the start
      never gets a predecessor, so the zero-weight detour through `x` is not
      taken. */
  method QueryZeroWeightSelf() returns (r: Result<Route, PathError>)
    ensures r == Success(Route(["s"], Fin(0)))
  {
    var g0 := AddVertex(AddVertex(Empty(), "s"), "x");
    AddVertexWellFormed(Empty(), "s");
    AddVertexWellFormed(AddVertex(Empty(), "s"), "x");
    AddEdgeWellFormed(g0, "s", "x", 0);
    r := ShortPath(ZeroEdgeGraph(), "s", "s");
  }

  /** The same query on any graph with the sample's shape. */
  method QueryAToE(g: Graph) returns (r: Result<Route, PathError>)
    requires SampleLike(g)
    ensures r == Success(Route(["a", "d", "e"], Fin(12)))
  {
    r := ShortPath(g, "a", "e");
    var direct := ["a", "d", "e"];
    assert PathFromTo(g, direct, "a", "e");
    assert PathWeight(g, direct) == 12;
    var route := r.value;
    PotentialIsLowerBound(g, route.path);
    assert route.distance == Fin(12);
    OnlyRouteOfWeight12(g, route.path);
  }
}

=== FILE: shortest_paths.dfy ===
/** Dijkstra's single-source search of `Pathfinding.py` (function `dijkstra`). */
module ShortestPaths {
  import opened Options
  import opened Distances
  import opened Graphs
  import opened Paths

  /** `progress`: the distance found so far from the start to each vertex. */
  type Progress = map<Vertex, Dist>

  /** `predecessors`: the vertex each vertex was last reached from, if any. */
  type Predecessors = map<Vertex, Option<Vertex>>

  /** Both maps are keyed by exactly the graph's vertices. */
  ghost predicate Covers(g: Graph, progress: Progress, preds: Predecessors) {
    progress.Keys == g.vertices && preds.Keys == g.vertices
  }

  /** The start is at distance 0 and has no predecessor. */
  ghost predicate StartSettled(start: Vertex, progress: Progress, preds: Predecessors) {
    start in progress && start in preds && progress[start] == Fin(0) && preds[start] == None
  }

  /** Each predecessor `p` of `v` is a reached vertex adjacent to `v`, and `v`'s
      distance is `p`'s distance plus the weight of the edge `(p, v)`. */
  ghost predicate PredecessorsConsistent(g: Graph, progress: Progress, preds: Predecessors) {
    forall v :: v in preds && preds[v].Some? ==>
      var p := preds[v].value;
      && p in progress && v in progress
      && v in Neighbors(g, p) && (p, v) in g.weights
      && progress[p].Fin?
      && progress[v] == progress[p].Plus(g.weights[(p, v)])
  }

  /** No edge out of `u` offers a shorter route than the one recorded. */
  ghost predicate RelaxedFrom(g: Graph, progress: Progress, u: Vertex) {
    && u in progress
    && forall v :: v in Neighbors(g, u) ==>
         v in progress && (u, v) in g.weights && progress[v].AtMost(progress[u].Plus(g.weights[(u, v)]))
  }

  /** The triangle inequality over every edge leaving a vertex. */
  ghost predicate TriangleInequality(g: Graph, progress: Progress) {
    forall u :: u in g.vertices ==> RelaxedFrom(g, progress, u)
  }

  /** Apart from the start, a vertex has a predecessor exactly when it was reached. */
  ghost predicate UnreachedUntouched(start: Vertex, progress: Progress, preds: Predecessors) {
    forall v :: v in progress && v in preds && v != start ==> (preds[v] == None <==> progress[v] == Inf)
  }

  /** `rank[v]` is the round of the main loop in which `v` was visited: the
      rounds are numbered 0 to |vertices| - 1 with one vertex each, the start
      goes first, every predecessor is visited before its successor, and
      vertices are visited in order of non-decreasing distance. */
  ghost predicate VisitOrder(g: Graph, start: Vertex, progress: Progress, preds: Predecessors, rank: map<Vertex, nat>) {
    && RoundNumbers(start, g.vertices, rank)
    && start in rank
    && PredecessorsEarlier(preds, rank)
    && DistanceOrder(progress, rank)
  }

  /** Everything `dijkstra` guarantees about its result. */
  ghost predicate Final(g: Graph, start: Vertex, progress: Progress, preds: Predecessors, rank: map<Vertex, nat>) {
    && Covers(g, progress, preds)
    && StartSettled(start, progress, preds)
    && PredecessorsConsistent(g, progress, preds)
    && TriangleInequality(g, progress)
    && UnreachedUntouched(start, progress, preds)
    && VisitOrder(g, start, progress, preds, rank)
    && EarliestPredecessor(g, progress, preds, rank)
  }

  /** Line 161 replaces a distance only by a strictly shorter one, so the
      predecessor kept is the first visited neighbour that offered the final
      distance: no neighbour visited before it offers as short a way in. */
  ghost predicate EarliestPredecessor(g: Graph, progress: Progress, preds: Predecessors, rank: map<Vertex, nat>) {
    forall v, u ::
      (&& v in preds && preds[v].Some? && u in rank && preds[v].value in rank
       && rank[u] < rank[preds[v].value] && v in Neighbors(g, u) && (u, v) in g.weights
       && u in progress && v in progress)
      ==> progress[v].Below(progress[u].Plus(g.weights[(u, v)]))
  }

  /** A finite non-empty set has an element of minimum distance. */
  lemma {:induction false} MinimumExists(s: set<Vertex>, progress: Progress)
    requires s != {} && s <= progress.Keys
    ensures exists m :: m in s && forall v :: v in s ==> progress[m].AtMost(progress[v])
    decreases |s|
  {
    var x :| x in s;
    if s == {x} {
      AtMostTotalPreorder(progress[x], progress[x], progress[x]);
      assert forall v :: v in s ==> v == x;
    } else {
      var rest := s - {x};
      assert |rest| < |s|;
      MinimumExists(rest, progress);
      var m :| m in rest && forall v :: v in rest ==> progress[m].AtMost(progress[v]);
      AtMostTotalPreorder(progress[x], progress[m], progress[x]);
      if progress[x].AtMost(progress[m]) {
        forall v | v in s ensures progress[x].AtMost(progress[v]) {
          AtMostTotalPreorder(progress[x], progress[m], progress[v]);
          AtMostTotalPreorder(progress[x], progress[x], progress[x]);
        }
        assert x in s;
      } else {
        forall v | v in s ensures progress[m].AtMost(progress[v]) {
          if v == x {
            AtMostTotalPreorder(progress[m], progress[x], progress[x]);
          }
        }
        assert m in s;
      }
    }
  }

  /** Relaxation leaves the visited vertices and `current` itself alone. */
  ghost predicate RoundFrame(g: Graph, visited: set<Vertex>, current: Vertex,
                             progress: Progress, preds: Predecessors, progress': Progress, preds': Predecessors)
    requires Covers(g, progress, preds) && Covers(g, progress', preds')
  {
    forall v :: v in g.vertices && (v in visited || v == current) ==>
      progress'[v] == progress[v] && preds'[v] == preds[v]
  }

  /** Any change relaxation makes is a strict improvement of an unvisited
      neighbour of `current` through the edge from `current`. */
  ghost predicate RoundChanges(g: Graph, visited: set<Vertex>, current: Vertex,
                               progress: Progress, preds: Predecessors, progress': Progress, preds': Predecessors)
    requires Covers(g, progress, preds) && Covers(g, progress', preds') && current in g.vertices
  {
    forall v :: v in g.vertices ==>
      || (progress'[v] == progress[v] && preds'[v] == preds[v])
      || (&& v in Neighbors(g, current) && v !in visited && v != current
          && (current, v) in g.weights
          && progress[current].Fin?
          && progress'[v] == progress[current].Plus(g.weights[(current, v)])
          && progress'[v].Below(progress[v])
          && preds'[v] == Some(current))
  }

  /** Afterwards no unvisited neighbour of `current` can be improved through `current`. */
  ghost predicate RoundRelaxes(g: Graph, visited: set<Vertex>, current: Vertex, progress: Progress, progress': Progress)
    requires current in progress
  {
    forall v :: v in Neighbors(g, current) && v !in visited ==>
      v in progress' && (current, v) in g.weights
      && progress'[v].AtMost(progress[current].Plus(g.weights[(current, v)]))
  }

  /** What one round's relaxation does (`Pathfinding.py` lines 155-166). */
  ghost predicate RelaxedRound(g: Graph, visited: set<Vertex>, current: Vertex,
                               progress: Progress, preds: Predecessors, progress': Progress, preds': Predecessors)
    requires Covers(g, progress, preds) && current in g.vertices
  {
    && Covers(g, progress', preds')
    && RoundFrame(g, visited, current, progress, preds, progress', preds')
    && RoundChanges(g, visited, current, progress, preds, progress', preds')
    && RoundRelaxes(g, visited, current, progress, progress')
  }

  /** One round's inner loop: relax every unvisited neighbour of `current`
      (`Pathfinding.py` lines 155-166). */
  method Relax(g: Graph, visited: set<Vertex>, current: Vertex, progress: Progress, preds: Predecessors)
    returns (progress': Progress, preds': Predecessors)
    requires Covers(g, progress, preds) && Closed(g) && Weighted(g)
    requires current in g.vertices && current !in visited
    ensures RelaxedRound(g, visited, current, progress, preds, progress', preds')
  {
    progress', preds' := progress, preds;
    var todo := (set x | x in Neighbors(g, current)) - visited;
    while todo != {}
      invariant todo <= (set x | x in Neighbors(g, current)) - visited
      invariant Covers(g, progress', preds')
      invariant progress'[current] == progress[current] && preds'[current] == preds[current]
      invariant forall v :: v in todo ==> progress'[v] == progress[v] && preds'[v] == preds[v]
      invariant RoundChanges(g, visited, current, progress, preds, progress', preds')
      invariant forall v :: v in Neighbors(g, current) && v !in visited && v !in todo ==>
        v in progress' && (current, v) in g.weights
        && progress'[v].AtMost(progress[current].Plus(g.weights[(current, v)]))
      decreases todo
    {
      var n :| n in todo;
      var candidate := progress'[current].Plus(g.weights[(current, n)]);
      PlusGrows(progress'[current], g.weights[(current, n)]);
      if candidate.Below(progress'[n]) {
        progress' := progress'[n := candidate];
        preds' := preds'[n := Some(current)];
      }
      todo := todo - {n};
    }
  }

  /** Before the first round only the start has a finite distance; after it
      the start is visited. */
  ghost predicate StartFirst(g: Graph, start: Vertex, visited: set<Vertex>, progress: Progress) {
    && (visited == {} ==> forall v :: v in g.vertices && v != start ==> v in progress && progress[v] == Inf)
    && (visited != {} ==> start in visited)
  }

  /** Every recorded predecessor has been visited. */
  ghost predicate PredecessorsVisited(preds: Predecessors, visited: set<Vertex>) {
    forall v :: v in preds && preds[v].Some? ==> preds[v].value in visited
  }

  /** `rank` numbers the visited vertices 0, 1, ... in the order they were
      visited, the start first. */
  ghost predicate RoundNumbers(start: Vertex, visited: set<Vertex>, rank: map<Vertex, nat>) {
    && rank.Keys == visited
    && (forall v :: v in rank ==> rank[v] < |visited|)
    && (forall u, v :: u in rank && v in rank && u != v ==> rank[u] != rank[v])
    && (start in rank ==> rank[start] == 0)
  }

  /** A visited vertex's predecessor was visited in an earlier round. */
  ghost predicate PredecessorsEarlier(preds: Predecessors, rank: map<Vertex, nat>) {
    forall v :: v in rank && v in preds && preds[v].Some? ==>
      preds[v].value in rank && rank[preds[v].value] < rank[v]
  }

  /** Vertices were visited in order of non-decreasing distance. */
  ghost predicate DistanceOrder(progress: Progress, rank: map<Vertex, nat>) {
    forall u, v :: u in rank && v in rank && u in progress && v in progress && rank[u] <= rank[v] ==>
      progress[u].AtMost(progress[v])
  }

  /** No unvisited vertex is nearer than a visited one. */
  ghost predicate VisitedNearest(g: Graph, visited: set<Vertex>, progress: Progress) {
    forall u, v :: u in visited && v in g.vertices - visited ==>
      u in progress && v in progress && progress[u].AtMost(progress[v])
  }

  /** Every visited vertex has had its edges relaxed. */
  ghost predicate VisitedRelaxed(g: Graph, visited: set<Vertex>, progress: Progress) {
    forall u :: u in visited ==> RelaxedFrom(g, progress, u)
  }

  /** The invariant of the main loop (`Pathfinding.py` lines 149-167) after the rounds that
      visited `visited`; `rank` numbers those rounds. */
  ghost predicate LoopInvariant(g: Graph, start: Vertex, visited: set<Vertex>,
                                progress: Progress, preds: Predecessors, rank: map<Vertex, nat>) {
    && visited <= g.vertices
    && Covers(g, progress, preds)
    && StartSettled(start, progress, preds)
    && StartFirst(g, start, visited, progress)
    && PredecessorsConsistent(g, progress, preds)
    && PredecessorsVisited(preds, visited)
    && UnreachedUntouched(start, progress, preds)
    && RoundNumbers(start, visited, rank)
    && PredecessorsEarlier(preds, rank)
    && DistanceOrder(progress, rank)
    && VisitedNearest(g, visited, progress)
    && VisitedRelaxed(g, visited, progress)
    && EarliestPredecessor(g, progress, preds, rank)
  }

  /** One round keeps the main loop's invariant. */
  lemma RoundKeepsInvariant(g: Graph, start: Vertex, visited: set<Vertex>, current: Vertex,
                            progress: Progress, preds: Predecessors, rank: map<Vertex, nat>,
                            progress': Progress, preds': Predecessors)
    requires Closed(g) && Weighted(g)
    requires LoopInvariant(g, start, visited, progress, preds, rank)
    requires current in g.vertices - visited
    requires forall v :: v in g.vertices - visited ==> progress[current].AtMost(progress[v])
    requires RelaxedRound(g, visited, current, progress, preds, progress', preds')
    ensures LoopInvariant(g, start, visited + {current}, progress', preds', rank[current := |visited|])
  {
    var visited' := visited + {current};
    var rank' := rank[current := |visited|];
    assert visited == {} ==> current == start;
    StartUntouchedByRound(g, start, visited, current, progress, preds, progress', preds');
    PredecessorsAfterRound(g, start, visited, current, progress, preds, rank, progress', preds');
    RoundNumbersAfterRound(start, visited, current, rank);
    OrderAfterRound(g, visited, current, progress, preds, rank, progress', preds');
    NearestAfterRound(g, visited, current, progress, preds, progress', preds');
    RelaxedAfterRound(g, visited, current, progress, preds, progress', preds');
    EarliestAfterRound(g, visited, current, progress, preds, rank, progress', preds');
  }

  /** A round keeps the earliest predecessors: an unchanged entry keeps its
      old witness, and a new predecessor `current` beats every visited
      neighbour strictly, because those were relaxed before. */
  lemma EarliestAfterRound(g: Graph, visited: set<Vertex>, current: Vertex,
                           progress: Progress, preds: Predecessors, rank: map<Vertex, nat>,
                           progress': Progress, preds': Predecessors)
    requires Covers(g, progress, preds) && Covers(g, progress', preds') && visited <= g.vertices
    requires current in g.vertices - visited
    requires rank.Keys == visited && forall v :: v in rank ==> rank[v] < |visited|
    requires PredecessorsVisited(preds, visited)
    requires VisitedRelaxed(g, visited, progress)
    requires EarliestPredecessor(g, progress, preds, rank)
    requires RoundFrame(g, visited, current, progress, preds, progress', preds')
    requires RoundChanges(g, visited, current, progress, preds, progress', preds')
    ensures EarliestPredecessor(g, progress', preds', rank[current := |visited|])
  {
    var rank' := rank[current := |visited|];
    forall v, u | v in preds' && preds'[v].Some? && u in rank' && preds'[v].value in rank'
      && rank'[u] < rank'[preds'[v].value] && v in Neighbors(g, u) && (u, v) in g.weights
      && u in progress' && v in progress'
      ensures progress'[v].Below(progress'[u].Plus(g.weights[(u, v)]))
    {
      assert u in visited;
      assert progress'[u] == progress[u];
      var w := g.weights[(u, v)];
      if progress'[v] == progress[v] && preds'[v] == preds[v] {
        assert preds[v].value in visited;
      } else {
        assert RelaxedFrom(g, progress, u);
        AtMostTotalPreorder(progress'[v], progress[v], progress[u].Plus(w));
      }
    }
  }

  /** The start's entries survive a round: nothing is below distance 0. */
  lemma StartUntouchedByRound(g: Graph, start: Vertex, visited: set<Vertex>, current: Vertex,
                              progress: Progress, preds: Predecessors, progress': Progress, preds': Predecessors)
    requires Covers(g, progress, preds) && Covers(g, progress', preds')
    requires current in g.vertices && start in g.vertices
    requires StartSettled(start, progress, preds)
    requires UnreachedUntouched(start, progress, preds)
    requires RoundChanges(g, visited, current, progress, preds, progress', preds')
    ensures StartSettled(start, progress', preds')
    ensures UnreachedUntouched(start, progress', preds')
  {
    assert !progress'[start].Below(Fin(0));
  }

  /** After a round every predecessor is visited, consistent, and visited
      earlier than its successor. */
  lemma PredecessorsAfterRound(g: Graph, start: Vertex, visited: set<Vertex>, current: Vertex,
                               progress: Progress, preds: Predecessors, rank: map<Vertex, nat>,
                               progress': Progress, preds': Predecessors)
    requires Covers(g, progress, preds) && Covers(g, progress', preds') && visited <= g.vertices
    requires current in g.vertices - visited
    requires PredecessorsConsistent(g, progress, preds)
    requires PredecessorsVisited(preds, visited)
    requires rank.Keys == visited && forall v :: v in rank ==> rank[v] < |visited|
    requires PredecessorsEarlier(preds, rank)
    requires RoundFrame(g, visited, current, progress, preds, progress', preds')
    requires RoundChanges(g, visited, current, progress, preds, progress', preds')
    ensures PredecessorsConsistent(g, progress', preds')
    ensures PredecessorsVisited(preds', visited + {current})
    ensures PredecessorsEarlier(preds', rank[current := |visited|])
  {
    forall v | v in preds' && preds'[v].Some?
      ensures var p := preds'[v].value;
        && p in progress' && v in progress'
        && v in Neighbors(g, p) && (p, v) in g.weights
        && progress'[p].Fin?
        && progress'[v] == progress'[p].Plus(g.weights[(p, v)])
      ensures preds'[v].value in visited + {current}
    {
      if preds'[v] == preds[v] && progress'[v] == progress[v] {
        var p := preds[v].value;
        assert p in visited;
      }
    }
  }

  /** The new vertex gets the next round number. */
  lemma RoundNumbersAfterRound(start: Vertex, visited: set<Vertex>, current: Vertex, rank: map<Vertex, nat>)
    requires current !in visited
    requires RoundNumbers(start, visited, rank)
    requires visited == {} ==> current == start
    requires visited != {} ==> start in visited
    ensures RoundNumbers(start, visited + {current}, rank[current := |visited|])
  {
    assert |visited + {current}| == |visited| + 1;
  }

  /** The new vertex is at least as far as every vertex visited before it. */
  lemma OrderAfterRound(g: Graph, visited: set<Vertex>, current: Vertex,
                        progress: Progress, preds: Predecessors, rank: map<Vertex, nat>,
                        progress': Progress, preds': Predecessors)
    requires Covers(g, progress, preds) && Covers(g, progress', preds') && visited <= g.vertices
    requires current in g.vertices - visited
    requires rank.Keys == visited && forall v :: v in rank ==> rank[v] < |visited|
    requires DistanceOrder(progress, rank)
    requires VisitedNearest(g, visited, progress)
    requires RoundFrame(g, visited, current, progress, preds, progress', preds')
    ensures DistanceOrder(progress', rank[current := |visited|])
  {
    var rank' := rank[current := |visited|];
    forall u, v | u in rank' && v in rank' && u in progress' && v in progress' && rank'[u] <= rank'[v]
      ensures progress'[u].AtMost(progress'[v])
    {
      if v == current && u != current {
        assert progress[u].AtMost(progress[current]);
      }
    }
  }

  /** After a round no unvisited vertex is nearer than a visited one. */
  lemma NearestAfterRound(g: Graph, visited: set<Vertex>, current: Vertex,
                          progress: Progress, preds: Predecessors, progress': Progress, preds': Predecessors)
    requires Covers(g, progress, preds) && Covers(g, progress', preds') && visited <= g.vertices
    requires current in g.vertices - visited
    requires forall v :: v in g.vertices - visited ==> progress[current].AtMost(progress[v])
    requires VisitedNearest(g, visited, progress)
    requires RoundFrame(g, visited, current, progress, preds, progress', preds')
    requires RoundChanges(g, visited, current, progress, preds, progress', preds')
    ensures VisitedNearest(g, visited + {current}, progress')
  {
    forall u, v | u in visited + {current} && v in g.vertices - (visited + {current})
      ensures progress'[u].AtMost(progress'[v])
    {
      AtMostTotalPreorder(progress[u], progress[current], progress[v]);
      if progress'[v] != progress[v] {
        PlusGrows(progress[current], g.weights[(current, v)]);
        AtMostTotalPreorder(progress[u], progress[current], progress'[v]);
      }
    }
  }

  /** After a round every visited vertex, `current` included, has its edges relaxed. */
  lemma RelaxedAfterRound(g: Graph, visited: set<Vertex>, current: Vertex,
                          progress: Progress, preds: Predecessors, progress': Progress, preds': Predecessors)
    requires Closed(g) && Weighted(g)
    requires Covers(g, progress, preds) && Covers(g, progress', preds') && visited <= g.vertices
    requires current in g.vertices - visited
    requires VisitedNearest(g, visited, progress)
    requires VisitedRelaxed(g, visited, progress)
    requires RoundFrame(g, visited, current, progress, preds, progress', preds')
    requires RoundChanges(g, visited, current, progress, preds, progress', preds')
    requires RoundRelaxes(g, visited, current, progress, progress')
    ensures VisitedRelaxed(g, visited + {current}, progress')
  {
    forall u | u in visited + {current}
      ensures RelaxedFrom(g, progress', u)
    {
      forall v | v in Neighbors(g, u)
        ensures v in progress' && (u, v) in g.weights
        ensures progress'[v].AtMost(progress'[u].Plus(g.weights[(u, v)]))
      {
        var w := g.weights[(u, v)];
        PlusGrows(progress[u], w);
        if u in visited {
          assert RelaxedFrom(g, progress, u);
          assert progress[v].AtMost(progress[u].Plus(w));
          AtMostTotalPreorder(progress'[v], progress[v], progress[u].Plus(w));
        } else if v in visited {
          assert progress[v].AtMost(progress[current]);
          AtMostTotalPreorder(progress'[v], progress[current], progress[current].Plus(w));
        }
      }
    }
  }

  /** The state built by `Pathfinding.py` lines 137-146 satisfies the loop invariant. */
  lemma InitialInvariant(g: Graph, start: Vertex, progress: Progress, preds: Predecessors)
    requires start in g.vertices
    requires progress == (map v | v in g.vertices :: Inf)[start := Fin(0)]
    requires preds == map v | v in g.vertices :: None
    ensures LoopInvariant(g, start, {}, progress, preds, map[])
  {
  }

  /** Once every vertex is visited, the invariant yields the final guarantees. */
  lemma InvariantAtExit(g: Graph, start: Vertex, progress: Progress, preds: Predecessors, rank: map<Vertex, nat>)
    requires start in g.vertices
    requires LoopInvariant(g, start, g.vertices, progress, preds, rank)
    ensures Final(g, start, progress, preds, rank)
  {
  }

  /** One round that visits `current`: an unvisited vertex of minimum
      distance, relaxed as `Relax` does. */
  ghost predicate RoundVisit(g: Graph, visited: set<Vertex>, progress: Progress, preds: Predecessors, current: Vertex,
                             visited': set<Vertex>, progress': Progress, preds': Predecessors) {
    && current in g.vertices - visited
    && current in progress
    && (forall v :: v in g.vertices - visited ==> v in progress && progress[current].AtMost(progress[v]))
    && visited' == visited + {current}
    && Covers(g, progress, preds)
    && RelaxedRound(g, visited, current, progress, preds, progress', preds')
  }

  /** The same round, with `current` numbered by the round it is visited in. */
  ghost predicate RoundStep(g: Graph, visited: set<Vertex>, progress: Progress, preds: Predecessors,
                            rank: map<Vertex, nat>, current: Vertex,
                            visited': set<Vertex>, progress': Progress, preds': Predecessors, rank': map<Vertex, nat>) {
    && RoundVisit(g, visited, progress, preds, current, visited', progress', preds')
    && rank' == rank[current := |visited|]
  }

  /** One round of the main loop (`Pathfinding.py` lines 152-167): visit an unvisited vertex
      of minimum distance and relax its unvisited neighbours. */
  method Round(g: Graph, start: Vertex, visited: set<Vertex>, progress: Progress, preds: Predecessors,
               ghost rank: map<Vertex, nat>)
    returns (visited': set<Vertex>, progress': Progress, preds': Predecessors, ghost rank': map<Vertex, nat>)
    requires Closed(g) && Weighted(g)
    requires LoopInvariant(g, start, visited, progress, preds, rank)
    requires visited != g.vertices
    ensures LoopInvariant(g, start, visited', progress', preds', rank')
    ensures exists current :: RoundVisit(g, visited, progress, preds, current, visited', progress', preds')
    ensures exists current :: RoundStep(g, visited, progress, preds, rank, current, visited', progress', preds', rank')
  {
    MinimumExists(g.vertices - visited, progress);
    var current :| current in g.vertices - visited
      && forall v :: v in g.vertices - visited ==> progress[current].AtMost(progress[v]);
    progress', preds' := Relax(g, visited, current, progress, preds);
    RoundKeepsInvariant(g, start, visited, current, progress, preds, rank, progress', preds');
    rank' := rank[current := |visited|];
    visited' := visited + {current};
    assert RoundStep(g, visited, progress, preds, rank, current, visited', progress', preds', rank');
  }

  /** `dijkstra(graph, start_node)`. The vertex of each round is any unvisited
      vertex of minimum distance, which covers every tie-break `min` may make. */
  method Dijkstra(g: Graph, start: Vertex)
    returns (progress: Progress, preds: Predecessors, ghost rank: map<Vertex, nat>)
    requires start in g.vertices
    requires Closed(g) && Weighted(g)
    ensures Covers(g, progress, preds)
    ensures StartSettled(start, progress, preds)
    ensures PredecessorsConsistent(g, progress, preds)
    ensures TriangleInequality(g, progress)
    ensures UnreachedUntouched(start, progress, preds)
    ensures VisitOrder(g, start, progress, preds, rank)
    ensures EarliestPredecessor(g, progress, preds, rank)
  {
    var visited: set<Vertex> := {};
    progress := map v | v in g.vertices :: Inf;
    preds := map v | v in g.vertices :: None;
    progress := progress[start := Fin(0)];
    rank := map[];
    InitialInvariant(g, start, progress, preds);
    while visited != g.vertices
      invariant LoopInvariant(g, start, visited, progress, preds, rank)
      decreases g.vertices - visited
    {
      visited, progress, preds, rank := Round(g, start, visited, progress, preds, rank);
    }
    InvariantAtExit(g, start, progress, preds, rank);
  }
}

=== FILE: tie_sample.dfy ===
/** A graph with two routes of equal weight, on which `short_path` keeps the
    route through the vertex it visited first. Vertices `s`, `u`, `a`, `t`;
    edges s-u (1), u-t (3), s-a (2), a-t (2). Both s-u-t and s-a-t weigh 4,
    and the distances 0, 1, 2, 4 never tie, so the visit order is s, u, a, t.
    `t` first gets 4 through `u`; `a`'s offer of 4 is not strictly smaller. */
module TieSample {
  import opened Options
  import opened Distances
  import opened Graphs
  import opened Paths
  import opened Optimality
  import opened Reconstruction

  /** The four `add_vertex` calls. */
  function TieVertices(): Graph {
    AddVertex(AddVertex(AddVertex(AddVertex(Empty(), "s"), "u"), "a"), "t")
  }

  /** The four `add_edge` calls, applied to `g`. */
  function AddTieEdges(g: Graph): Graph {
    var g1 := AddEdge(g, "s", "u", 1);
    var g2 := AddEdge(g1, "u", "t", 3);
    var g3 := AddEdge(g2, "s", "a", 2);
    AddEdge(g3, "a", "t", 2)
  }

  /** The whole graph. */
  function TieGraph(): Graph {
    AddTieEdges(TieVertices())
  }

  /** The vertex names. */
  const TieNames: set<Vertex> := {"s", "u", "a", "t"}

  /** Four isolated vertices. */
  lemma TieVerticesShape()
    ensures TieVertices().vertices == TieNames
    ensures forall x :: Neighbors(TieVertices(), x) == []
    ensures WellFormed(TieVertices())
  {
    var g0 := Empty();
    var g1 := AddVertex(g0, "s");
    var g2 := AddVertex(g1, "u");
    var g3 := AddVertex(g2, "a");
    AddVertexWellFormed(g0, "s");
    AddVertexWellFormed(g1, "u");
    AddVertexWellFormed(g2, "a");
    AddVertexWellFormed(g3, "t");
  }

  /** The adjacency lists of the four vertices, as `[s, u, a, t]`. */
  ghost predicate TieLists(g: Graph, ls: seq<Vertex>, lu: seq<Vertex>, la: seq<Vertex>, lt: seq<Vertex>) {
    Neighbors(g, "s") == ls && Neighbors(g, "u") == lu && Neighbors(g, "a") == la && Neighbors(g, "t") == lt
  }

  /** The undirected edge `{x, y}` weighs `d` in both directions. */
  ghost predicate Weighs(g: Graph, x: Vertex, y: Vertex, d: nat) {
    (x, y) in g.weights && (y, x) in g.weights && g.weights[(x, y)] == d && g.weights[(y, x)] == d
  }

  /** The four weights. */
  ghost predicate TieWeights(g: Graph) {
    Weighs(g, "s", "u", 1) && Weighs(g, "u", "t", 3) && Weighs(g, "s", "a", 2) && Weighs(g, "a", "t", 2)
  }

  /** One lemma per `add_edge` call: the lists and weights after it. */
  lemma EdgeSU(g: Graph)
    requires TieLists(g, [], [], [], [])
    ensures TieLists(AddEdge(g, "s", "u", 1), ["u"], ["s"], [], [])
    ensures Weighs(AddEdge(g, "s", "u", 1), "s", "u", 1)
  {}
  lemma EdgeUT(g: Graph)
    requires TieLists(g, ["u"], ["s"], [], []) && Weighs(g, "s", "u", 1)
    ensures TieLists(AddEdge(g, "u", "t", 3), ["u"], ["s", "t"], [], ["u"])
    ensures Weighs(AddEdge(g, "u", "t", 3), "s", "u", 1) && Weighs(AddEdge(g, "u", "t", 3), "u", "t", 3)
  {}
  lemma EdgeSA(g: Graph)
    requires TieLists(g, ["u"], ["s", "t"], [], ["u"]) && Weighs(g, "s", "u", 1) && Weighs(g, "u", "t", 3)
    ensures TieLists(AddEdge(g, "s", "a", 2), ["u", "a"], ["s", "t"], ["s"], ["u"])
    ensures Weighs(AddEdge(g, "s", "a", 2), "s", "u", 1) && Weighs(AddEdge(g, "s", "a", 2), "u", "t", 3)
    ensures Weighs(AddEdge(g, "s", "a", 2), "s", "a", 2)
  {}
  lemma EdgeAT(g: Graph)
    requires TieLists(g, ["u", "a"], ["s", "t"], ["s"], ["u"])
    requires Weighs(g, "s", "u", 1) && Weighs(g, "u", "t", 3) && Weighs(g, "s", "a", 2)
    ensures TieLists(AddEdge(g, "a", "t", 2), ["u", "a"], ["s", "t"], ["s", "t"], ["u", "a"])
    ensures TieWeights(AddEdge(g, "a", "t", 2))
  {}

  /** Everything the query below needs to know about the graph. */
  ghost predicate TieLike(g: Graph) {
    && g.vertices == TieNames
    && WellFormed(g)
    && TieLists(g, ["u", "a"], ["s", "t"], ["s", "t"], ["u", "a"])
    && TieWeights(g)
  }

  /** The calls build a graph of that shape. */
  lemma TieGraphIsTieLike()
    ensures TieLike(TieGraph())
  {
    TieVerticesShape();
    var g := TieVertices();
    var g1 := AddEdge(g, "s", "u", 1);
    var g2 := AddEdge(g1, "u", "t", 3);
    var g3 := AddEdge(g2, "s", "a", 2);
    EdgeSU(g); EdgeUT(g1); EdgeSA(g2); EdgeAT(g3);
    AddEdgeWellFormed(g, "s", "u", 1);
    AddEdgeWellFormed(g1, "u", "t", 3);
    AddEdgeWellFormed(g2, "s", "a", 2);
    AddEdgeWellFormed(g3, "a", "t", 2);
  }

  /** The true distances from `s`, as `Dist` values. */
  function TiePotential(): map<Vertex, Dist> {
    map["s" := Fin(0), "u" := Fin(1), "a" := Fin(2), "t" := Fin(4)]
  }

  /** The potential is relaxed along every edge out of `x`. */
  lemma TiePotentialRelaxedAt(g: Graph, x: Vertex)
    requires TieLists(g, ["u", "a"], ["s", "t"], ["s", "t"], ["u", "a"])
    requires TieWeights(g) && x in TieNames
    ensures ShortestPaths.RelaxedFrom(g, TiePotential(), x)
  {
    var pot := TiePotential();
    assert pot["s"] == Fin(0) && pot["u"] == Fin(1) && pot["a"] == Fin(2) && pot["t"] == Fin(4);
    forall y | y in Neighbors(g, x)
      ensures y in pot && (x, y) in g.weights && pot[y].AtMost(pot[x].Plus(g.weights[(x, y)]))
    {
      if x == "s" {
        assert y == "u" || y == "a";
      } else if x == "u" {
        assert y == "s" || y == "t";
      } else if x == "a" {
        assert y == "s" || y == "t";
      } else {
        assert y == "u" || y == "a";
      }
    }
  }

  /** The potential satisfies the triangle inequality over the whole graph. */
  lemma TiePotentialRelaxed(g: Graph)
    requires TieLike(g)
    ensures ShortestPaths.TriangleInequality(g, TiePotential())
  {
    forall x | x in g.vertices ensures ShortestPaths.RelaxedFrom(g, TiePotential(), x) {
      TiePotentialRelaxedAt(g, x);
    }
  }

  /** No path from `s` is lighter than the potential of its end. */
  lemma TiePotentialIsLowerBound(g: Graph, p: seq<Vertex>)
    requires g.vertices == TieNames && Closed(g)
    requires ShortestPaths.TriangleInequality(g, TiePotential())
    requires IsPath(g, p) && p[0] == "s"
    ensures p[|p| - 1] in TiePotential() && TiePotential()[p[|p| - 1]].AtMost(Fin(PathWeight(g, p)))
  {
    var pot := TiePotential();
    assert pot.Keys == TieNames && pot["s"] == Fin(0);
    DistanceIsLowerBound(g, "s", pot, p);
  }

  /** One instance of `EarliestLinks`: the link into `p[i + 1]` against the
      detour `q`. */
  lemma EarliestLinkAt(g: Graph, start: Vertex, p: seq<Vertex>, i: nat, q: seq<Vertex>)
    requires EarliestLinks(g, start, p) && i < |p| - 1
    requires IsPath(g, q) && q[0] == start
    requires p[i + 1] in Neighbors(g, q[|q| - 1]) && (q[|q| - 1], p[i + 1]) in g.weights
    ensures IsPath(g, p[..i + 1]) && IsPath(g, p[..i + 2])
    ensures PathWeight(g, q) < PathWeight(g, p[..i + 1]) ==>
      PathWeight(g, p[..i + 2]) < PathWeight(g, q) + g.weights[(q[|q| - 1], p[i + 1])]
  {
    assert EarliestLink(g, start, p, i);
  }

  /** `short_path(g, 's', 't')` returns `(['s', 'u', 't'], 4)`, not the
      equally light `s-a-t`: `u` is visited before `a`. */
  method QueryTie() returns (r: Result<Route, PathError>)
    ensures r == Success(Route(["s", "u", "t"], Fin(4)))
  {
    TieGraphIsTieLike();
    r := QueryTieOn(TieGraph());
  }

  /** The same query on any graph of that shape. */
  method QueryTieOn(g: Graph) returns (r: Result<Route, PathError>)
    requires TieLike(g)
    ensures r == Success(Route(["s", "u", "t"], Fin(4)))
  {
    r := ShortPath(g, "s", "t");
    var viaU := ["s", "u", "t"];
    assert PathFromTo(g, viaU, "s", "t");
    assert PathWeight(g, viaU) == 4;
    var p := r.value.path;
    TiePotentialRelaxed(g);
    TiePotentialIsLowerBound(g, p);
    assert r.value.distance == Fin(4);
    OnlyEarliestRoute(g, p);
  }

  /** The only simple route from `s` to `t` of weight 4 that takes earliest
      links is s-u-t: entering `t` from `a` loses to the lighter `u`. */
  lemma OnlyEarliestRoute(g: Graph, p: seq<Vertex>)
    requires TieLike(g) && PathFromTo(g, p, "s", "t") && PathWeight(g, p) == 4
    requires Simple(p) && EarliestLinks(g, "s", p)
    ensures p == ["s", "u", "t"]
  {
    PathStaysInGraph(g, p);
    var n := |p|;
    assert n >= 2;
    var x := p[n - 2];
    assert "t" in Neighbors(g, x);
    assert x in TieNames;
    assert x == "u" || x == "a";
    PathWeightLast(g, p);
    var p1 := p[..n - 1];
    assert p[..n] == p;
    if x == "a" {
      assert PathWeight(g, p1) == 2;
      var q := ["s", "u"];
      assert IsPath(g, q) && PathWeight(g, q) == 1;
      EarliestLinkAt(g, "s", p, n - 2, q);
      assert false;
    }
    assert PathWeight(g, p1) == 1;
    assert n >= 3 by { assert p1[0] == "s" && p1[|p1| - 1] == "u"; }
    var y := p[n - 3];
    assert p1[|p1| - 2] == y && p1[|p1| - 1] == "u";
    assert "u" in Neighbors(g, y);
    assert y in TieNames;
    PathWeightLast(g, p1);
    assert y == "s";
    assert p[0] == p[n - 3];
  }
}
